=== FILE: README.md ===
# Careful hoisting and GPU language data in llvm2KITTeL, in Dafny

This project models two parts of llvm2KITTeL's LLVM front end.

- **The careful hoister** (`CarefulHoister`). It is a loop pass. In a loop's
  blocks, in dominator-tree order, it looks for instructions whose operands
  are all loop-invariant and that are of a harmless kind: division and
  remainder, some integer and pointer casts, and calls of functions that
  never load or store. It moves each such instruction to the end of the
  loop's preheader, just before the preheader's terminator. It never moves a
  load, and it leaves the blocks of subloops alone.
- **The memory-purity check** it relies on (`Purity`, `doesNotAccessMemory`).
  This check recurses through the call graph.
- **The language data of GPU kernels** (`LanguageData`). It decides whether
  a function is a kernel entry point from the module's `nvvm.annotations`
  and `opencl.kernels` metadata. It also recovers the launch geometry of a
  kernel: the threads per group (`local`) and the groups (`group`) on each of
  three axes. It reads this geometry from marker functions named `__axiom…`,
  whose single block states one dimension as a fixed instruction pattern.
  The geometry is then validated.

The IR is abstract (`IR`):

- a function body is a sequence of blocks, and a block is identified by its
  position;
- an instruction has an id, an opcode and operands, and an operand that is
  another instruction's result refers to it by id;
- a module is a sequence of functions plus its named metadata.

Analyses computed elsewhere are inputs to the pass: the loop with its
immediate subloops and optional preheader, and the header's dominator-tree
node.

A pure function `HoistRegion` threads the body through the traversal. Every
stage satisfies one relation, `HoistStep`:

- the moved instructions sit, in order, just before the preheader's
  terminator;
- blocks outside the loop and blocks of subloops are unchanged;
- the loop's blocks only lose instructions;
- no instruction is created or lost;
- every moved instruction is hoistable and still loop-invariant;
- moving nothing changes nothing.

Each traversal stage states exactly which blocks it scanned: nothing moves
if and only if no instruction of a scanned block qualifies. Blocks it did
not scan keep their contents. Companion lemmas state two more facts about
every stage:

- `KeepsOrder`: each loop block keeps the instructions that stay in their
  original order, and a block ending in a terminator still ends in it;
- `MovesAll`: every instruction of a scanned block that qualifies in the
  incoming body is moved. Hoisting an instruction only makes other
  instructions' operands more invariant.

`HoistWalk` follows the walk itself. `ScanOrder` lists the scanned blocks in
the order the depth-first walk over the dominator tree meets them, and
`ScanSeq` lists their instructions in that order. Two facts follow:

- the instructions reach the preheader in the order the walk met them: the
  moved list is a subsequence of `ScanSeq`;
- one walk is enough when definitions come before uses. Suppose no
  instruction id occurs twice in the loop and the dominator tree lists no
  block twice. Suppose also that every instruction of the loop outside its
  subloops that a scanned instruction uses (its operands and the called
  value of an indirect call) was met earlier by the walk, phi nodes
  excepted, since a phi is never hoisted. Then no
  instruction left in a scanned block could still be hoisted. A use that
  only qualifies once its definition has moved is therefore moved in the
  same walk, because the scan of a block stays at the same position after
  a move.

An operand here is what `User::getOperand` yields. A call or invoke through
a computed value has that value as an operand too (`IR.AllOperands`).

`Scenarios` states what the model computes on concrete inputs:

- a one-block loop whose division is hoisted and whose load is not;
- a nested loop where a block below the subloop is never visited;
- an OpenCL marker and a CUDA marker;
- a malformed marker, which makes validation fail;
- a loop block holding a division and a second division that uses its
  result. One run moves both, definition first.

## Model

| member | source | states |
|---|---|---|
| Purity.DoesNotAccessMemory | lib/Transform/CarefulHoister.cpp:106-133 | an indirect call (null function), a callee the module does not define and a declaration are impure; a pure callee is a direct call of a defined function with at least one block |
| Purity.PureFrom | lib/Transform/CarefulHoister.cpp:111-132 | when the scan of a function's instructions succeeds, none of the scanned instructions is a load or a store and every call among them is direct |
| Purity.PureFromIff | lib/Transform/CarefulHoister.cpp:111-132 | the early-exit scan succeeds exactly when every remaining instruction is pure: no load, no store, and every call other than dbg_value goes directly to a pure function |
| Purity.DoesNotAccessMemoryIff | lib/Transform/CarefulHoister.cpp:106-133 | a named function is pure exactly when it is defined with at least one block and every instruction in it is pure; declarations (no blocks) and unknown names are impure |
| Purity.DeclarationIsImpure | lib/Transform/CarefulHoister.cpp:108-110 | a function whose body holds no block is a declaration, so it is impure |
| Purity.MemoryAccessIsImpure | lib/Transform/CarefulHoister.cpp:113-115 | a single load or store anywhere in a function makes it impure |
| Purity.ImpureCalleeIsImpure | lib/Transform/CarefulHoister.cpp:116-128 | impurity propagates to callers: a call, other than of dbg_value, of an impure function makes the caller impure |
| Purity.RankIrrelevant | lib/Transform/CarefulHoister.cpp:106-133 | on an acyclic call graph the answer does not depend on which rank map witnesses the acyclicity |
| Purity.RankIrrelevantFrom | lib/Transform/CarefulHoister.cpp:111-132 | the per-instruction scan likewise gives the same answer under any two acyclicity witnesses |
| CarefulHoister.CanHoistInst | lib/Transform/CarefulHoister.cpp:136-172 | an instruction is hoistable exactly when it is a call of a memory-free callee, an sdiv/udiv/fdiv/srem/urem, or a zext/sext/trunc/ptrtoint/fptosi/fptoui cast; so never a load, a store or a terminator |
| CarefulHoister.InSubLoop | lib/Transform/CarefulHoister.cpp:202-210 | true exactly when some immediate subloop contains the block |
| CarefulHoister.SubLoopsContain | lib/Transform/CarefulHoister.cpp:204-209 | the scan over the subloop list finds the block exactly when one of the listed subloops contains it |
| IR.AllOperands | lib/Transform/CarefulHoister.cpp:178-179 | the operands the loop reads are the listed operands followed, exactly for a call or invoke through a computed value, by that value |
| CarefulHoister.IsLoopInvariantInst | lib/Transform/CarefulHoister.cpp:175-186 | true exactly when every operand, the called value of an indirect call included, is loop-invariant, i.e. none is an instruction currently inside the loop; an instruction without operands is invariant |
| CarefulHoister.OperandsInvariantFrom | lib/Transform/CarefulHoister.cpp:178-182 | the operand loop returns true exactly when all operands from the given position on are invariant |
| CarefulHoister.InvariantPersists | lib/Transform/CarefulHoister.cpp:88-97 | when the loop's blocks only lose instructions, an instruction that was invariant stays invariant, so later hoists never invalidate earlier ones |
| CarefulHoister.Hoist | lib/Transform/CarefulHoister.cpp:190-200 | the instruction leaves its block and is inserted just before the preheader's terminator; no other block changes and the multiset of all instructions is unchanged |
| CarefulHoister.HoistIsStep | lib/Transform/CarefulHoister.cpp:94-96 | one hoist of a qualifying instruction keeps the pass's invariant: the preheader shape, the untouched blocks, no loss or creation of instructions, and invariance of what was moved |
| CarefulHoister.HoistStepTrans | lib/Transform/CarefulHoister.cpp:76-104 | two consecutive stages of the pass compose into one, with their moved instructions in order |
| CarefulHoister.HoistBlock | lib/Transform/CarefulHoister.cpp:88-97 | the per-instruction loop keeps the pass's invariant, moves nothing exactly when no remaining instruction of the block qualifies, and changes no block but this one and the preheader |
| CarefulHoister.QualifiesPersists | lib/Transform/CarefulHoister.cpp:88-97 | an instruction that qualifies before a stage of the pass still qualifies after it |
| CarefulHoister.HoistKeepsLaterQualifying | lib/Transform/CarefulHoister.cpp:88-96 | after one hoist, every later instruction of the block sits one place earlier, and still qualifies if it did |
| CarefulHoister.HoistBlockMovesAll | lib/Transform/CarefulHoister.cpp:88-97 | the per-instruction loop misses nothing: every instruction from the current position on that qualifies in the incoming body is moved |
| CarefulHoister.HoistKeepsOrder | lib/Transform/CarefulHoister.cpp:190-197 | one hoist deletes a single instruction, never a terminator, from one loop block: the rest keep their order and the terminator stays last |
| CarefulHoister.HoistBlockKeepsOrder | lib/Transform/CarefulHoister.cpp:88-97 | the per-instruction loop keeps the order of what stays in each loop block, and a terminator stays last |
| CarefulHoister.RegionInLoop | lib/Transform/CarefulHoister.cpp:80-87 | every block the walk from a node scans is in the loop and in no subloop |
| CarefulHoister.ChildRegionsInLoop | lib/Transform/CarefulHoister.cpp:99-102 | the same for the blocks scanned under a node's children |
| CarefulHoister.HoistRegion | lib/Transform/CarefulHoister.cpp:76-104 | the walk keeps the pass's invariant; it moves nothing exactly when no instruction of a scanned block qualifies; it changes no unscanned block other than the preheader; a node outside the loop or in a subloop ends the walk, with nothing below it visited |
| CarefulHoister.HoistChildren | lib/Transform/CarefulHoister.cpp:99-102 | the loop over the children keeps the invariant; it moves nothing exactly when no block scanned under the remaining children qualifies; it changes only blocks scanned under them, and the preheader |
| CarefulHoister.MovesAllThen | lib/Transform/CarefulHoister.cpp:87-102 | a block's scan followed by the scans below it misses nothing: blocks the first stage did not scan reach the later stages unchanged, and what qualified still qualifies |
| CarefulHoister.HoistRegionMovesAll | lib/Transform/CarefulHoister.cpp:76-104 | the walk misses nothing: every instruction of a scanned block that qualifies in the incoming body is moved |
| CarefulHoister.HoistChildrenMovesAll | lib/Transform/CarefulHoister.cpp:99-102 | the same for the blocks scanned under the remaining children |
| CarefulHoister.HoistRegionKeepsOrder | lib/Transform/CarefulHoister.cpp:76-104 | the walk keeps the order of what stays in each loop block, and a terminator stays last |
| CarefulHoister.HoistChildrenKeepsOrder | lib/Transform/CarefulHoister.cpp:99-102 | the same for the loop over the children |
| CarefulHoister.RunOnLoop | lib/Transform/CarefulHoister.cpp:48-70 | without a preheader nothing happens; otherwise the reported change holds exactly when the body differs, and exactly when some scanned block held a qualifying instruction; instructions are only relocated; blocks of subloops, blocks outside the loop and unscanned blocks are untouched; the preheader keeps its old instructions and its terminator, and everything inserted before the terminator is hoistable and loop-invariant |
| CarefulHoister.RunOnLoopQuiet | lib/Transform/CarefulHoister.cpp:58-70 | when no scanned block holds a qualifying instruction, the run reports no change and leaves the body as it was |
| CarefulHoister.RunOnLoopMovesAll | lib/Transform/CarefulHoister.cpp:58-67 | with a preheader, every instruction of a scanned block that qualifies in the incoming body ends up among the instructions inserted before the preheader's terminator |
| CarefulHoister.RunOnLoopKeepsOrder | lib/Transform/CarefulHoister.cpp:48-70 | every loop block keeps the order of the instructions that stay, and a block ending in a terminator still ends in it |
| HoistWalk.ScanOrderIsRegion | lib/Transform/CarefulHoister.cpp:76-104 | the depth-first order of the walk lists exactly the blocks it scans |
| HoistWalk.ScanOrderInLoop | lib/Transform/CarefulHoister.cpp:80-87 | every block in the walk's order is a loop block outside every subloop |
| HoistWalk.HoistBlockMovesInOrder | lib/Transform/CarefulHoister.cpp:88-97 | the loop over a block moves instructions in the order they stand: the moved list is a subsequence of the block from the current position on |
| HoistWalk.HoistRegionMovesInOrder | lib/Transform/CarefulHoister.cpp:76-104 | the walk moves instructions in the order it meets them: the moved list is a subsequence of the scanned blocks' instructions in depth-first order |
| HoistWalk.HoistChildrenMovesInOrder | lib/Transform/CarefulHoister.cpp:99-102 | the same for the loop over a node's children |
| HoistWalk.RunOnLoopMovesInOrder | lib/Transform/CarefulHoister.cpp:58-67 | with a preheader, the instructions inserted before its terminator stand in the order the walk from the header met them |
| HoistWalk.UniqueIdsNoDup | lib/Transform/CarefulHoister.cpp:190-197 | when no instruction id occurs twice in the loop's blocks, no instruction does, so one that was hoisted is gone from every loop block |
| HoistWalk.HoistBlockSettles | lib/Transform/CarefulHoister.cpp:88-97 | when definitions come before uses, after the loop over a block nothing met so far and nothing from the current position on can still be hoisted |
| HoistWalk.HoistRegionSettles | lib/Transform/CarefulHoister.cpp:76-104 | the same for the whole walk from a node, provided no block is scanned twice |
| HoistWalk.HoistChildrenSettles | lib/Transform/CarefulHoister.cpp:99-102 | the same for the loop over a node's children |
| HoistWalk.HoistRegionOnePass | lib/Transform/CarefulHoister.cpp:72-75 | one walk suffices: with unique ids, no block scanned twice, and every loop definition a scanned instruction uses met earlier by the walk, nothing left in a scanned block qualifies afterwards |
| HoistWalk.RunOnLoopOnePass | lib/Transform/CarefulHoister.cpp:58-75 | the same for the pass: after one run with a preheader, no instruction left in a scanned block qualifies |
| LanguageData.AnnotationsGuardAlwaysHolds | lib/Language/LanguageData.cpp:19 | the guard `SL == SL_CUDA \|\| SL_OpenCL` holds for every source language |
| LanguageData.KernelTagFrom | lib/Language/LanguageData.cpp:28-35 | the step-two loop over an entry's operands finds "kernel" exactly when it sits at an odd position from the start position on |
| LanguageData.ScanAnnotations | lib/Language/LanguageData.cpp:20-37 | the scan of nvvm.annotations succeeds exactly when some entry names F and carries "kernel" at an odd position |
| LanguageData.ScanKernels | lib/Language/LanguageData.cpp:41-51 | the scan of opencl.kernels succeeds exactly when some entry's first operand is F |
| LanguageData.IsGPUEntryPoint | lib/Language/LanguageData.cpp:18-55 | F is an entry point exactly when nvvm.annotations tags it "kernel", for any source language, or the language is OpenCL and opencl.kernels lists it |
| LanguageData.IsGPUEntryPointPerDialect | lib/Language/LanguageData.cpp:18-55 | the corrected version: nvvm.annotations counts for CUDA and OpenCL only, so C code never has an entry point |
| LanguageData.PerDialectDiffersOnlyForC | lib/Language/LanguageData.cpp:19 | the version as written and the corrected one disagree exactly for C functions tagged "kernel" in nvvm.annotations |
| LanguageData.CFunctionTaggedInAnnotationsIsEntryPoint | lib/Language/LanguageData.cpp:19-31 | a C module whose nvvm.annotations tags `main` as "kernel" makes `main` an entry point as written, but not in the corrected version |
| LanguageData.Record | lib/Language/LanguageData.cpp:90-97 | writing an axiom sets its slot to its value and the bit width to the value's width, and leaves every other slot as it was |
| LanguageData.MatchOpenCLAxiom | lib/Language/LanguageData.cpp:57-98 | the matcher returns an axiom only when the function has the OpenCL marker shape for it, and returns it whenever the function has that shape |
| LanguageData.ExtractOpenCLAxiom | lib/Language/LanguageData.cpp:57-98 | a function with the OpenCL marker shape records its axiom; any other function leaves the dimensions unchanged |
| LanguageData.MatchCUDAAxiom | lib/Language/LanguageData.cpp:124-184 | the matcher returns an axiom only when the function has the CUDA marker shape for it, and returns it whenever the function has that shape |
| LanguageData.ExtractCUDAAxiom | lib/Language/LanguageData.cpp:124-184 | a function with the CUDA marker shape records its axiom; any other function leaves the dimensions unchanged |
| LanguageData.ExtractAllLastWins | lib/Language/LanguageData.cpp:103-108 | after the fold over the module, each slot holds the value of the last marker writing it, or its starting value if none does; the bit width is that of the last marker that matched |
| LanguageData.LastSlotWins | lib/Language/LanguageData.cpp:90-95 | over any list of functions, a slot ends with the value of the last marker that writes it, or keeps its starting value |
| LanguageData.LastWidthWins | lib/Language/LanguageData.cpp:92-95 | over any list of functions, the bit width ends as the width of the last marker that matched, or keeps its starting value |
| LanguageData.CheckDimensions | lib/Language/LanguageData.cpp:110-119 | validation succeeds, returning the dimensions unchanged, exactly when every local and group slot holds a constant whose signed value is positive; otherwise it fails with "Unsupported kernel dimension" and status 111 |
| LanguageData.AllSlotsAreLastValues | lib/Language/LanguageData.cpp:101-108 | starting from all slots unset, each slot ends as the last value written to it |
| LanguageData.ExtractDimensions | lib/Language/LanguageData.cpp:100-122 | succeeds exactly when, on every axis, the last markers for both roles give positive values; the slots are then those last values and the bit width that of the last matching marker |
| LanguageData.ExtractOpenCLDimensions | lib/Language/LanguageData.cpp:100-122 | the same for the OpenCL pattern, with the process exit as a Failure |
| LanguageData.ExtractCUDADimensions | lib/Language/LanguageData.cpp:186-208 | the same for the CUDA pattern, with the process exit as a Failure |
| IR.SExtValue | lib/Language/LanguageData.cpp:111-118 | the two's-complement reading lies in the signed range of the width, differs from the unsigned reading by 0 or 2^width, and is positive exactly when the pattern is nonzero with the sign bit clear |
| Scenarios.LocalSizeMarkerRecordsAxis1 | lib/Language/LanguageData.cpp:57-98 | `get_local_size(1) == 256; ret` records local[1] = 256 with bit width 32 and touches nothing else |
| Scenarios.MarkerWithGapRecordsNothing | lib/Language/LanguageData.cpp:76-79 | an instruction between the call and the comparison breaks the pattern; a module with only that marker fails validation |
| Scenarios.GridDimMarkerMatches | lib/Language/LanguageData.cpp:124-184 | the addrspacecast / getelementptr / load / icmp / ret sequence on gridDim with index 2 matches as group axis 2 |
| Scenarios.GridDimMarkerRecordsGroup2 | lib/Language/LanguageData.cpp:179-181 | the gridDim marker records group[2] = 64 with bit width 32 and leaves local unset |
| Scenarios.HoistDivision | lib/Transform/CarefulHoister.cpp:190-200 | hoisting the division of the loop block puts it before the preheader's branch |
| Scenarios.RestOfBlockStays | lib/Transform/CarefulHoister.cpp:138-140 | after the division has moved, the load and the branch that remain do not qualify |
| Scenarios.DivisionQualifies | lib/Transform/CarefulHoister.cpp:94 | a udiv of two arguments is invariant and hoistable |
| Scenarios.LoopBlockHoistsDivision | lib/Transform/CarefulHoister.cpp:88-97 | in the loop's only block exactly the division is moved |
| Scenarios.RegionHoistsDivision | lib/Transform/CarefulHoister.cpp:76-104 | the walk from the header moves exactly the division |
| Scenarios.DivisionIsHoistedLoadIsNot | lib/Transform/CarefulHoister.cpp:48-70 | the pass on the one-block loop moves the division to the preheader, keeps the load and the branch in the loop, and reports a change |
| Scenarios.HeaderKeepsBranch | lib/Transform/CarefulHoister.cpp:169-171 | a header holding only its branch moves nothing |
| Scenarios.BlockBelowSubloopIsNotScanned | lib/Transform/CarefulHoister.cpp:85-103 | in the nested loop only the header is scanned: the walk stops at the subloop's block, so the block it dominates is never reached |
| Scenarios.NestedDivisionQualifies | lib/Transform/CarefulHoister.cpp:94 | the division below the subloop's block is invariant and hoistable |
| Scenarios.BlockBelowSubloopIsSkipped | lib/Transform/CarefulHoister.cpp:85-103 | a qualifying division in a loop block dominated by a subloop block stays where it is, and the pass reports no change |
| Scenarios.UseWaitsForDefinition | lib/Transform/CarefulHoister.cpp:175-186 | while a division is in the loop, a second division using its result is not loop-invariant |
| Scenarios.UseQualifiesOnceDefinitionMoved | lib/Transform/CarefulHoister.cpp:175-186 | once the first division has moved out, the second qualifies |
| Scenarios.ChainBlockHoistsBoth | lib/Transform/CarefulHoister.cpp:88-97 | the scan of the block moves the definition and then its use, in one pass over the block |
| Scenarios.ChainIsHoistedInOneRun | lib/Transform/CarefulHoister.cpp:48-70 | one run of the pass moves the whole chain, definition first, to just before the preheader's branch, and reports a change |

## Left out

- Pass plumbing is not modelled: the constructor, `getAnalysisUsage`, `createCarefulHoisterPass` and pass registration. The `changed` field is replaced by the result's `changed` component.
- The loop, its subloops, its preheader and the dominator tree are inputs. Their computation (LoopInfo, DominatorTree) is not part of this model. `LoopWellFormed` only asks what the pass itself relies on: loop blocks exist, and a preheader lies outside the loop, is nonempty and ends in a terminator, which `hoist` inserts in front of (CarefulHoister.cpp:197).
- The text on standard error and `std::exit(111)` become `Failure(Abort("Unsupported kernel dimension", 111))`.
- Instruction result types, floating-point values and the instruction kinds the code never inspects are not modelled (they are `OtherInst`). The bit width recorded for a marker is the width of the compared constant. That is the width of `IC->getOperand(1)`'s type.
- ZExtValue, SExtValue: both read values of any size exactly. LLVM's `getZExtValue` and `getSExtValue` assert when the value needs more than 64 bits (unsigned and signed respectively), whatever the constant's width; builds without assertions keep only the low 64 bits. So an axis operand of 2^64 in an `i128` constant would read as 0 there and select axis 0 (LanguageData.cpp:72-74 and :153-155), where the model reads 2^64 and finds no match; likewise the positivity tests at LanguageData.cpp:111, :115, :197 and :201 see the low 64 bits in such builds, and the exact value in the model. Constants needing more than 64 bits are outside what the source supports, so the model does not reproduce the truncation.
- DoesNotAccessMemory: defined only for modules whose whole call graph is acyclic, witnessed by a rank map (`Acyclic`). `doesNotAccessMemory` has no cycle guard. Its scan of a function returns at the first load, store, indirect call or impure callee. So on a cyclic call graph it still comes back when each cycle it meets is cut by such an instruction earlier in the scan; it runs forever only when it reaches a recursive call first. The model does not describe those terminating runs on cyclic graphs: that would need a witness per query instead of one per module.
- RunOnLoop: for the same reason, `RunOnLoop`, `HoistRegion`, `HoistBlock` and `CanHoistInst` ask for a module with no call cycle at all, even among functions the loop never calls.
- A callee name that the module does not define is treated as a declaration. The dbg_value intrinsic is recognised by its name `llvm.dbg.value`. An `invoke` is a terminator and not a call, so the purity scan ignores it and `canHoistInst` rejects it, as in LLVM.
- Purity is judged on the module as given, while the body being transformed is separate. Relocation inside one function does not add or remove loads, stores or calls, so this does not change any answer.
- Visiting the dominator children of a block in a subloop is not modelled, because this file's `HoistRegion` never does it. Its children loop (CarefulHoister.cpp:99-102) sits inside the `!inSubLoop` test at line 87. In LLVM's LICM, which the file names as the origin of its code (line 8), the children loop comes after that test instead. `Scenarios.BlockBelowSubloopIsSkipped` shows the consequence.
- RunOnLoopOnePass: the one-pass property is proved under premises, not derived from SSA form. The pass's comment (CarefulHoister.cpp:72-75) relies on dominance: a definition dominates its uses, so the depth-first walk meets it first. Dominance is an input here, not computed, so the lemma asks for its consequence directly. It asks that every loop instruction outside subloops that a scanned instruction uses was met earlier by the walk. It also asks that instruction ids are unique and that the dominator tree lists no block twice. Phi nodes are exempt from that premise: `canHoistInst` never accepts one, and a header phi takes values from the latch, which the walk meets later.
- A link between a marker's comparison and its call or load is not checked. The OpenCL and CUDA matchers never test that the comparison's first operand is the call's or the load's result, and neither does the model.
- Inputs that are not valid IR are treated as "no match" rather than as crashes. These include a call without arguments, a block shorter than the pattern (the source would step past its end), and an addrspacecast whose source is not a pointer.
- IsGPUEntryPoint: every metadata entry must have an operand 0. An nvvm.annotations entry naming F must have an odd number of operands. Otherwise the source's step-by-two loop skips past the end. The condition is asked of every such entry, also of those after an early return, which the source would never read.
- IsGPUEntryPoint: an operand at an odd position counts only when it is the metadata string "kernel". From LLVM 3.6 on, the source casts the operand to `MDString` (LanguageData.cpp:33) and would abort on anything else. Before 3.6 it compares the operand's `getName()` (line 30), so a function or global value named kernel would match as well. Neither behaviour is modelled for operands that are not strings.

## Findings

| source | as written | input that shows it | evidently intended | confidence | as-written member | corrected member |
|---|---|---|---|---|---|---|
| lib/Language/LanguageData.cpp:19 | `SL == SL_CUDA \|\| SL_OpenCL` converts the enumerator `SL_OpenCL` (2) to true, so the nvvm.annotations lookup runs for every language | a C module whose nvvm.annotations entry `!{main, !"kernel", ...}` makes `main` a GPU entry point | `SL == SL_CUDA \|\| SL == SL_OpenCL`: annotations only for CUDA and OpenCL | high; not executed | LanguageData.IsGPUEntryPoint (with LanguageData.CFunctionTaggedInAnnotationsIsEntryPoint) | LanguageData.IsGPUEntryPointPerDialect |

=== FILE: hoister.dfy ===
/**
  The careful hoister: a loop pass that moves loop-invariant instructions of
  a few harmless kinds (division and remainder, some casts, calls of
  functions that touch no memory) out of a loop into its preheader, and never
  moves a load.

  The function being transformed is a list of blocks, a block being
  identified by its position in that list. The loop, its immediate subloops,
  its preheader and the dominator tree are inputs computed elsewhere.
*/
module CarefulHoister {
  import opened Wrappers
  import opened IR
  import opened Purity

  /** A loop: its blocks (including those of nested loops), its immediate subloops and its preheader, if any. */
  datatype Loop = Loop(blocks: set<nat>, subloops: seq<Loop>, preheader: Option<nat>)

  /** A dominator tree node: a block and the nodes it immediately dominates. */
  datatype DomTree = Node(block: nat, children: seq<DomTree>)

  type Body = seq<Block>

  /** The binary operators the hoister accepts. */
  const HoistableBinaryOps: set<BinaryOp> := {SDiv, UDiv, FDiv, SRem, URem}

  /** The casts the hoister accepts. */
  const HoistableCasts: set<CastOp> := {ZExt, SExt, Trunc, PtrToInt, FPToSI, FPToUI}

  /** The kinds of instruction the hoister accepts: calls of memory-free callees, and the listed operators and casts. */
  predicate HoistableKind(m: Module, rank: map<string, nat>, op: Opcode)
    requires Acyclic(m, rank)
  {
    || (op.Call? && DoesNotAccessMemory(m, rank, op.callee))
    || (op.Binary? && op.bop in HoistableBinaryOps)
    || (op.Cast? && op.cop in HoistableCasts)
  }

  /**
    canHoistInst: loads never; calls exactly when the callee does not access
    memory; binary operators and casts of the listed kinds; nothing else.
  */
  function CanHoistInst(m: Module, rank: map<string, nat>, i: Inst): (r: bool)
    requires Acyclic(m, rank)
    ensures r <==> HoistableKind(m, rank, i.opcode)
    ensures r ==> !i.opcode.Load? && !i.opcode.Store? && !IsTerminator(i.opcode)
  {
    if i.opcode.Load? then false
    else if i.opcode.Call? then DoesNotAccessMemory(m, rank, i.opcode.callee)
    else if i.opcode.Binary? then
      match i.opcode.bop
      case SDiv => true
      case UDiv => true
      case FDiv => true
      case SRem => true
      case URem => true
      case _ => false
    else if i.opcode.Cast? && (i.opcode.cop == ZExt || i.opcode.cop == SExt || i.opcode.cop == Trunc) then true
    else if i.opcode.Cast? && i.opcode.cop == PtrToInt then true
    else if i.opcode.Cast? && (i.opcode.cop == FPToSI || i.opcode.cop == FPToUI) then true
    else false
  }

  /** inSubLoop: whether one of the loop's immediate subloops contains the block. */
  function InSubLoop(l: Loop, b: nat): (r: bool)
    ensures r <==> exists s :: 0 <= s < |l.subloops| && b in l.subloops[s].blocks
  {
    SubLoopsContain(l.subloops, b)
  }

  function SubLoopsContain(subloops: seq<Loop>, b: nat): (r: bool)
    ensures r <==> exists s :: 0 <= s < |subloops| && b in subloops[s].blocks
  {
    if |subloops| == 0 then false
    else if b in subloops[0].blocks then true
    else
      var rest := SubLoopsContain(subloops[1..], b);
      assert rest <==> exists s :: 1 <= s < |subloops| && b in subloops[s].blocks by {
        forall s | 1 <= s < |subloops| ensures subloops[s] == subloops[1..][s - 1] { }
      }
      rest
  }

  /** Whether an instruction with this id currently sits in one of the loop's blocks. */
  predicate DefinedInLoop(l: Loop, body: Body, id: nat)
  {
    exists b, j :: b in l.blocks && b < |body| && 0 <= j < |body[b]| && body[b][j].id == id
  }

  /**
    Loop::isLoopInvariant: a value is invariant unless it is an instruction
    inside the loop. It is judged on the current body, so an instruction that
    has been hoisted out already counts as invariant.
  */
  predicate IsLoopInvariant(l: Loop, body: Body, v: Value)
  {
    match v
    case InstRef(id) => !DefinedInLoop(l, body, id)
    case _ => true
  }

  /**
    isLoopInvariantInst: every operand, including the called value of an
    indirect call, is loop-invariant; an instruction without operands is.
  */
  function IsLoopInvariantInst(l: Loop, body: Body, i: Inst): (r: bool)
    ensures r <==> forall k :: 0 <= k < |AllOperands(i)| ==> IsLoopInvariant(l, body, AllOperands(i)[k])
  {
    OperandsInvariantFrom(l, body, AllOperands(i), 0)
  }

  function OperandsInvariantFrom(l: Loop, body: Body, ops: seq<Value>, k: nat): (r: bool)
    requires k <= |ops|
    decreases |ops| - k
    ensures r <==> forall k' :: k <= k' < |ops| ==> IsLoopInvariant(l, body, ops[k'])
  {
    if k == |ops| then true
    else if !IsLoopInvariant(l, body, ops[k]) then false
    else OperandsInvariantFrom(l, body, ops, k + 1)
  }

  /**
    If the loop's blocks only lost instructions between two bodies, an
    instruction that was loop-invariant in the first still is in the second.
  */
  lemma InvariantPersists(l: Loop, before: Body, after: Body, i: Inst)
    requires |after| == |before|
    requires forall x :: x in l.blocks && x < |after| ==> multiset(after[x]) <= multiset(before[x])
    requires IsLoopInvariantInst(l, before, i)
    ensures IsLoopInvariantInst(l, after, i)
  {
    var ops := AllOperands(i);
    forall k | 0 <= k < |ops| && ops[k].InstRef?
      ensures !DefinedInLoop(l, after, ops[k].id)
    {
      var id := ops[k].id;
      assert IsLoopInvariant(l, before, ops[k]);
      forall b, j | b in l.blocks && b < |after| && 0 <= j < |after[b]|
        ensures after[b][j].id != id
      {
        assert after[b][j] in multiset(after[b]);
        assert after[b][j] in before[b];
      }
    }
  }

  function Init<T>(s: seq<T>): seq<T>
    requires |s| > 0
  {
    s[..|s| - 1]
  }

  function Last<T>(s: seq<T>): T
    requires |s| > 0
  {
    s[|s| - 1]
  }

  /**
    hoist: the k-th instruction of block b leaves that block and is inserted
    just before the preheader's last instruction, its terminator. Nothing is
    created or lost, and no other block changes.
  */
  function Hoist(body: Body, ph: nat, b: nat, k: nat): (r: Body)
    requires b < |body| && ph < |body| && b != ph
    requires k < |body[b]| && |body[ph]| > 0
    ensures |r| == |body|
    ensures r[b] == body[b][..k] + body[b][k + 1..]
    ensures r[ph] == Init(body[ph]) + [body[b][k]] + [Last(body[ph])]
    ensures forall x :: 0 <= x < |body| && x != b && x != ph ==> r[x] == body[x]
    ensures multiset(r[b]) + multiset{body[b][k]} == multiset(body[b])
    ensures multiset(Flatten(r)) == multiset(Flatten(body))
  {
    var removed := body[b][..k] + body[b][k + 1..];
    var inserted := Init(body[ph]) + [body[b][k]] + [Last(body[ph])];
    RelocationKeepsInstructions(body, ph, b, k, removed, inserted);
    body[b := removed][ph := inserted]
  }

  lemma RelocationKeepsInstructions(body: Body, ph: nat, b: nat, k: nat, removed: Block, inserted: Block)
    requires b < |body| && ph < |body| && b != ph
    requires k < |body[b]| && |body[ph]| > 0
    requires removed == body[b][..k] + body[b][k + 1..]
    requires inserted == Init(body[ph]) + [body[b][k]] + [Last(body[ph])]
    ensures multiset(removed) + multiset{body[b][k]} == multiset(body[b])
    ensures multiset(Flatten(body[b := removed][ph := inserted])) == multiset(Flatten(body))
  {
    var i := body[b][k];
    assert body[b] == body[b][..k] + [i] + body[b][k + 1..];
    assert body[ph] == Init(body[ph]) + [Last(body[ph])];
    var mid := body[b := removed];
    var out := mid[ph := inserted];
    var mi := multiset{i};
    assert multiset(body[b]) == multiset(removed) + mi;
    assert multiset(inserted) == multiset(body[ph]) + mi;
    FlattenUpdate(body, b, removed);
    FlattenUpdate(mid, ph, inserted);
    assert mid[ph] == body[ph];
    MultisetCancel(multiset(Flatten(mid)) + mi, multiset(Flatten(body)), multiset(removed));
    MultisetCancel(multiset(Flatten(out)), multiset(Flatten(mid)) + mi, multiset(body[ph]));
  }

  lemma MultisetCancel<T>(a: multiset<T>, b: multiset<T>, c: multiset<T>)
    requires a + c == b + c
    ensures a == b
  {
    assert forall x :: a[x] == (a + c)[x] - c[x];
  }

  /** The result of hoisting: the new body, and the instructions moved, in the order they were moved. */
  datatype Hoisted = Hoisted(body: Body, moved: seq<Inst>)

  /** The shape the pass needs: the preheader lies outside the loop and ends in an instruction. */
  predicate WellFormed(m: Module, rank: map<string, nat>, l: Loop, ph: nat, body: Body)
  {
    && Acyclic(m, rank)
    && (forall x :: x in l.blocks ==> x < |body|)
    && ph < |body| && ph !in l.blocks && |body[ph]| > 0
  }

  /** An instruction the pass moves when it meets it: loop-invariant now, and of a hoistable kind. */
  predicate Qualifies(m: Module, rank: map<string, nat>, l: Loop, body: Body, i: Inst)
    requires Acyclic(m, rank)
  {
    IsLoopInvariantInst(l, body, i) && CanHoistInst(m, rank, i)
  }

  /** No instruction of block b at position k or later qualifies. */
  predicate QuietFrom(m: Module, rank: map<string, nat>, l: Loop, body: Body, b: nat, k: nat)
    requires Acyclic(m, rank)
  {
    b < |body| ==> forall j :: k <= j < |body[b]| ==> !Qualifies(m, rank, l, body, body[b][j])
  }

  /**
    The relation between the body before and after any part of the pass: the
    moved instructions now sit, in order, just before the preheader's
    terminator; blocks outside the loop (other than the preheader) and blocks
    of subloops are unchanged; the loop's blocks only lose instructions; no
    instruction is created or lost; every moved instruction is hoistable and
    loop-invariant; and moving nothing changes nothing.
  */
  ghost predicate HoistStep(m: Module, rank: map<string, nat>, l: Loop, ph: nat, before: Body, after: Body, moved: seq<Inst>)
    requires WellFormed(m, rank, l, ph, before)
  {
    && |after| == |before|
    && after[ph] == Init(before[ph]) + moved + [Last(before[ph])]
    && (forall x :: 0 <= x < |before| && x != ph && (x !in l.blocks || InSubLoop(l, x)) ==> after[x] == before[x])
    && (forall x :: x in l.blocks ==> multiset(after[x]) <= multiset(before[x]))
    && multiset(Flatten(after)) == multiset(Flatten(before))
    && (forall j :: 0 <= j < |moved| ==> CanHoistInst(m, rank, moved[j]) && IsLoopInvariantInst(l, after, moved[j]))
    && (|moved| == 0 ==> after == before)
  }

  lemma HoistStepTrans(m: Module, rank: map<string, nat>, l: Loop, ph: nat,
                       b0: Body, b1: Body, m1: seq<Inst>, b2: Body, m2: seq<Inst>)
    requires WellFormed(m, rank, l, ph, b0)
    requires HoistStep(m, rank, l, ph, b0, b1, m1)
    requires WellFormed(m, rank, l, ph, b1)
    requires HoistStep(m, rank, l, ph, b1, b2, m2)
    ensures HoistStep(m, rank, l, ph, b0, b2, m1 + m2)
  {
    assert Init(b1[ph]) == Init(b0[ph]) + m1;
    assert Last(b1[ph]) == Last(b0[ph]);
    assert b2[ph] == Init(b0[ph]) + (m1 + m2) + [Last(b0[ph])];
    forall j | 0 <= j < |m1 + m2|
      ensures CanHoistInst(m, rank, (m1 + m2)[j]) && IsLoopInvariantInst(l, b2, (m1 + m2)[j])
    {
      if j < |m1| {
        assert (m1 + m2)[j] == m1[j];
        InvariantPersists(l, b1, b2, m1[j]);
      } else {
        assert (m1 + m2)[j] == m2[j - |m1|];
      }
    }
  }

  /** An instruction that qualifies before a step of the pass still qualifies after it. */
  lemma QualifiesPersists(m: Module, rank: map<string, nat>, l: Loop, ph: nat,
                          before: Body, after: Body, moved: seq<Inst>, i: Inst)
    requires WellFormed(m, rank, l, ph, before)
    requires HoistStep(m, rank, l, ph, before, after, moved)
    requires Qualifies(m, rank, l, before, i)
    ensures Qualifies(m, rank, l, after, i)
  {
    InvariantPersists(l, before, after, i);
  }

  /**
    The loop over one block in HoistRegion: each of the block's instructions,
    in order, is moved to the preheader if it qualifies at that moment. k is
    the position of the next instruction to look at; the ones before it
    stayed.
  */
  function HoistBlock(m: Module, rank: map<string, nat>, l: Loop, ph: nat, body: Body, b: nat, k: nat): (r: Hoisted)
    requires WellFormed(m, rank, l, ph, body)
    requires b in l.blocks && !InSubLoop(l, b) && k <= |body[b]|
    decreases |body[b]| - k
    ensures WellFormed(m, rank, l, ph, r.body)
    ensures HoistStep(m, rank, l, ph, body, r.body, r.moved)
    ensures |r.moved| == 0 <==> QuietFrom(m, rank, l, body, b, k)
    ensures forall x :: 0 <= x < |body| && x != ph && x != b ==> r.body[x] == body[x]
  {
    if k == |body[b]| then Hoisted(body, [])
    else
      var i := body[b][k];
      if IsLoopInvariantInst(l, body, i) && CanHoistInst(m, rank, i) then
        var next := Hoist(body, ph, b, k);
        HoistIsStep(m, rank, l, ph, body, b, k);
        var rest := HoistBlock(m, rank, l, ph, next, b, k);
        HoistThen(m, rank, l, ph, body, b, k, rest);
        Hoisted(rest.body, [i] + rest.moved)
      else
        var rest := HoistBlock(m, rank, l, ph, body, b, k + 1);
        QuietPast(m, rank, l, body, b, k);
        rest
  }

  /** Past an instruction that does not qualify, the rest of the block is quiet exactly when the block from it is. */
  lemma QuietPast(m: Module, rank: map<string, nat>, l: Loop, body: Body, b: nat, k: nat)
    requires Acyclic(m, rank)
    requires b < |body| && k < |body[b]|
    requires !Qualifies(m, rank, l, body, body[b][k])
    ensures QuietFrom(m, rank, l, body, b, k) <==> QuietFrom(m, rank, l, body, b, k + 1)
  {
  }

  /** A hoist followed by a step of the pass on the result is a step of the pass that moved the hoisted instruction first. */
  lemma HoistThen(m: Module, rank: map<string, nat>, l: Loop, ph: nat, body: Body, b: nat, k: nat, rest: Hoisted)
    requires WellFormed(m, rank, l, ph, body)
    requires b in l.blocks && !InSubLoop(l, b) && k < |body[b]|
    requires Qualifies(m, rank, l, body, body[b][k])
    requires WellFormed(m, rank, l, ph, Hoist(body, ph, b, k))
    requires HoistStep(m, rank, l, ph, Hoist(body, ph, b, k), rest.body, rest.moved)
    requires forall x :: 0 <= x < |body| && x != ph && x != b ==> rest.body[x] == Hoist(body, ph, b, k)[x]
    ensures HoistStep(m, rank, l, ph, body, rest.body, [body[b][k]] + rest.moved)
    ensures !QuietFrom(m, rank, l, body, b, k)
    ensures forall x :: 0 <= x < |body| && x != ph && x != b ==> rest.body[x] == body[x]
  {
    var next := Hoist(body, ph, b, k);
    HoistIsStep(m, rank, l, ph, body, b, k);
    HoistStepTrans(m, rank, l, ph, body, next, [body[b][k]], rest.body, rest.moved);
  }

  /** A single call of hoist on a qualifying instruction is a step of the pass. */
  lemma HoistIsStep(m: Module, rank: map<string, nat>, l: Loop, ph: nat, body: Body, b: nat, k: nat)
    requires WellFormed(m, rank, l, ph, body)
    requires b in l.blocks && !InSubLoop(l, b) && k < |body[b]|
    requires Qualifies(m, rank, l, body, body[b][k])
    ensures WellFormed(m, rank, l, ph, Hoist(body, ph, b, k))
    ensures HoistStep(m, rank, l, ph, body, Hoist(body, ph, b, k), [body[b][k]])
  {
    var next := Hoist(body, ph, b, k);
    var i := body[b][k];
    forall x | x in l.blocks
      ensures multiset(next[x]) <= multiset(body[x])
    {
      if x == b {
        assert multiset(next[b]) + multiset{i} == multiset(body[b]);
      }
    }
    InvariantPersists(l, body, next, i);
  }

  /**
    The blocks whose instructions the traversal from node n looks at: nodes
    in the loop and outside every subloop, reached without passing through a
    node outside the loop or inside a subloop.
  */
  ghost function Region(l: Loop, n: DomTree): set<nat>
    decreases n, |n.children| + 1
  {
    if n.block in l.blocks && !InSubLoop(l, n.block) then {n.block} + ChildRegions(l, n, 0) else {}
  }

  /** The blocks scanned under the children of n from the c-th on. */
  ghost function ChildRegions(l: Loop, n: DomTree, c: nat): set<nat>
    decreases n, |n.children| - c
  {
    if c < |n.children| then Region(l, n.children[c]) + ChildRegions(l, n, c + 1) else {}
  }

  /** Only blocks of the loop outside its subloops are ever scanned. */
  lemma {:induction false} RegionInLoop(l: Loop, n: DomTree)
    decreases n, |n.children| + 1
    ensures forall b :: b in Region(l, n) ==> b in l.blocks && !InSubLoop(l, b)
  {
    if n.block in l.blocks && !InSubLoop(l, n.block) {
      ChildRegionsInLoop(l, n, 0);
    }
  }

  lemma {:induction false} ChildRegionsInLoop(l: Loop, n: DomTree, c: nat)
    decreases n, |n.children| - c
    ensures forall b :: b in ChildRegions(l, n, c) ==> b in l.blocks && !InSubLoop(l, b)
  {
    if c < |n.children| {
      RegionInLoop(l, n.children[c]);
      ChildRegionsInLoop(l, n, c + 1);
    }
  }

  /**
    HoistRegion: depth-first over the dominator tree from n. A node outside
    the loop ends the walk; a node in a subloop is skipped together with
    everything below it; otherwise the node's block is processed and then its
    children, in order.
  */
  function HoistRegion(m: Module, rank: map<string, nat>, l: Loop, ph: nat, n: DomTree, body: Body): (r: Hoisted)
    requires WellFormed(m, rank, l, ph, body)
    decreases n, |n.children| + 2
    ensures WellFormed(m, rank, l, ph, r.body)
    ensures HoistStep(m, rank, l, ph, body, r.body, r.moved)
    ensures |r.moved| == 0 <==> forall b :: b in Region(l, n) ==> QuietFrom(m, rank, l, body, b, 0)
    ensures forall x :: 0 <= x < |body| && x != ph && x !in Region(l, n) ==> r.body[x] == body[x]
    ensures n.block !in l.blocks || InSubLoop(l, n.block) ==> r == Hoisted(body, [])
  {
    if n.block !in l.blocks || InSubLoop(l, n.block) then Hoisted(body, [])
    else
      var here := HoistBlock(m, rank, l, ph, body, n.block, 0);
      var below := HoistChildren(m, rank, l, ph, n, 0, here.body);
      HoistStepTrans(m, rank, l, ph, body, here.body, here.moved, below.body, below.moved);
      assert |here.moved| == 0 ==> here.body == body;
      Hoisted(below.body, here.moved + below.moved)
  }

  /** The loop over a node's children in HoistRegion, from the c-th child on. */
  function HoistChildren(m: Module, rank: map<string, nat>, l: Loop, ph: nat, n: DomTree, c: nat, body: Body): (r: Hoisted)
    requires WellFormed(m, rank, l, ph, body)
    requires c <= |n.children|
    decreases n, |n.children| - c
    ensures WellFormed(m, rank, l, ph, r.body)
    ensures HoistStep(m, rank, l, ph, body, r.body, r.moved)
    ensures |r.moved| == 0 <==> forall b :: b in ChildRegions(l, n, c) ==> QuietFrom(m, rank, l, body, b, 0)
    ensures forall x :: 0 <= x < |body| && x != ph && x !in ChildRegions(l, n, c) ==> r.body[x] == body[x]
  {
    if c == |n.children| then Hoisted(body, [])
    else
      var first := HoistRegion(m, rank, l, ph, n.children[c], body);
      var rest := HoistChildren(m, rank, l, ph, n, c + 1, first.body);
      HoistStepTrans(m, rank, l, ph, body, first.body, first.moved, rest.body, rest.moved);
      Hoisted(rest.body, first.moved + rest.moved)
  }

  /**
    Each of the loop's blocks keeps the instructions that stay in their
    original order, and a block that ended in a terminator still ends in it.
  */
  ghost predicate KeepsOrder(l: Loop, before: Body, after: Body)
    requires forall x :: x in l.blocks ==> x < |before| && x < |after|
  {
    && (forall x :: x in l.blocks ==> IsSubsequence(after[x], before[x]))
    && (forall x :: x in l.blocks && |before[x]| > 0 && IsTerminator(Last(before[x]).opcode) ==>
          |after[x]| > 0 && Last(after[x]) == Last(before[x]))
  }

  lemma KeepsOrderRefl(l: Loop, body: Body)
    requires forall x :: x in l.blocks ==> x < |body|
    ensures KeepsOrder(l, body, body)
  {
    forall x | x in l.blocks
      ensures IsSubsequence(body[x], body[x])
    {
      SubsequenceRefl(body[x]);
    }
  }

  lemma KeepsOrderTrans(l: Loop, b0: Body, b1: Body, b2: Body)
    requires forall x :: x in l.blocks ==> x < |b0| && x < |b1| && x < |b2|
    requires KeepsOrder(l, b0, b1) && KeepsOrder(l, b1, b2)
    ensures KeepsOrder(l, b0, b2)
  {
    forall x | x in l.blocks
      ensures IsSubsequence(b2[x], b0[x])
    {
      SubsequenceTrans(b2[x], b1[x], b0[x]);
    }
  }

  /** hoist deletes one instruction, never a terminator, from a loop block and touches no other loop block. */
  lemma HoistKeepsOrder(m: Module, rank: map<string, nat>, l: Loop, ph: nat, body: Body, b: nat, k: nat)
    requires WellFormed(m, rank, l, ph, body)
    requires b in l.blocks && k < |body[b]|
    requires CanHoistInst(m, rank, body[b][k])
    ensures KeepsOrder(l, body, Hoist(body, ph, b, k))
  {
    var next := Hoist(body, ph, b, k);
    forall x | x in l.blocks
      ensures IsSubsequence(next[x], body[x])
    {
      if x == b {
        SubsequenceDelete(body[b], k);
      } else {
        SubsequenceRefl(body[x]);
      }
    }
    if IsTerminator(Last(body[b]).opcode) {
      assert k != |body[b]| - 1 by {
        assert !IsTerminator(body[b][k].opcode);
      }
      assert Last(next[b]) == Last(body[b]);
    }
  }

  lemma {:induction false} HoistBlockKeepsOrder(m: Module, rank: map<string, nat>, l: Loop, ph: nat, body: Body, b: nat, k: nat)
    requires WellFormed(m, rank, l, ph, body)
    requires b in l.blocks && !InSubLoop(l, b) && k <= |body[b]|
    decreases |body[b]| - k
    ensures KeepsOrder(l, body, HoistBlock(m, rank, l, ph, body, b, k).body)
  {
    if k == |body[b]| {
      KeepsOrderRefl(l, body);
    } else if Qualifies(m, rank, l, body, body[b][k]) {
      var next := Hoist(body, ph, b, k);
      HoistIsStep(m, rank, l, ph, body, b, k);
      var rest := HoistBlock(m, rank, l, ph, next, b, k);
      assert HoistBlock(m, rank, l, ph, body, b, k).body == rest.body;
      HoistKeepsOrder(m, rank, l, ph, body, b, k);
      HoistBlockKeepsOrder(m, rank, l, ph, next, b, k);
      KeepsOrderTrans(l, body, next, rest.body);
    } else {
      assert HoistBlock(m, rank, l, ph, body, b, k) == HoistBlock(m, rank, l, ph, body, b, k + 1);
      HoistBlockKeepsOrder(m, rank, l, ph, body, b, k + 1);
    }
  }

  lemma {:induction false} HoistRegionKeepsOrder(m: Module, rank: map<string, nat>, l: Loop, ph: nat, n: DomTree, body: Body)
    requires WellFormed(m, rank, l, ph, body)
    decreases n, |n.children| + 2
    ensures KeepsOrder(l, body, HoistRegion(m, rank, l, ph, n, body).body)
  {
    if n.block !in l.blocks || InSubLoop(l, n.block) {
      KeepsOrderRefl(l, body);
    } else {
      var here := HoistBlock(m, rank, l, ph, body, n.block, 0);
      HoistBlockKeepsOrder(m, rank, l, ph, body, n.block, 0);
      HoistChildrenKeepsOrder(m, rank, l, ph, n, 0, here.body);
      KeepsOrderTrans(l, body, here.body, HoistChildren(m, rank, l, ph, n, 0, here.body).body);
    }
  }

  lemma {:induction false} HoistChildrenKeepsOrder(m: Module, rank: map<string, nat>, l: Loop, ph: nat, n: DomTree, c: nat, body: Body)
    requires WellFormed(m, rank, l, ph, body)
    requires c <= |n.children|
    decreases n, |n.children| - c
    ensures KeepsOrder(l, body, HoistChildren(m, rank, l, ph, n, c, body).body)
  {
    if c == |n.children| {
      KeepsOrderRefl(l, body);
    } else {
      var first := HoistRegion(m, rank, l, ph, n.children[c], body);
      HoistRegionKeepsOrder(m, rank, l, ph, n.children[c], body);
      HoistChildrenKeepsOrder(m, rank, l, ph, n, c + 1, first.body);
      KeepsOrderTrans(l, body, first.body, HoistChildren(m, rank, l, ph, n, c + 1, first.body).body);
    }
  }

  /** Every instruction of the given blocks that qualifies in body is among the moved ones. */
  ghost predicate MovesAll(m: Module, rank: map<string, nat>, l: Loop, body: Body, blocks: set<nat>, moved: seq<Inst>)
    requires Acyclic(m, rank)
  {
    forall b, j :: b in blocks && b < |body| && 0 <= j < |body[b]| && Qualifies(m, rank, l, body, body[b][j]) ==>
      body[b][j] in moved
  }

  /**
    Two consecutive stages that each move everything qualifying in their own
    blocks together move everything qualifying in both sets of blocks, as
    long as the second stage's blocks that the first did not scan were left
    alone by it.
  */
  lemma MovesAllThen(m: Module, rank: map<string, nat>, l: Loop, ph: nat,
                     b0: Body, b1: Body, m1: seq<Inst>, first: set<nat>, m2: seq<Inst>, second: set<nat>)
    requires WellFormed(m, rank, l, ph, b0)
    requires HoistStep(m, rank, l, ph, b0, b1, m1)
    requires MovesAll(m, rank, l, b0, first, m1) && MovesAll(m, rank, l, b1, second, m2)
    requires forall x :: x in second ==> x in l.blocks
    requires forall x :: 0 <= x < |b0| && x != ph && x !in first ==> b1[x] == b0[x]
    ensures MovesAll(m, rank, l, b0, first + second, m1 + m2)
  {
    forall b, j | b in first + second && b < |b0| && 0 <= j < |b0[b]| && Qualifies(m, rank, l, b0, b0[b][j])
      ensures b0[b][j] in m1 + m2
    {
      if b !in first {
        QualifiesPersists(m, rank, l, ph, b0, b1, m1, b0[b][j]);
        assert b1[b][j] == b0[b][j];
      }
    }
  }

  /** A hoist out of a loop block leaves the body well formed, and the loop's blocks only lose instructions. */
  lemma HoistShrinksLoop(m: Module, rank: map<string, nat>, l: Loop, ph: nat, body: Body, b: nat, k: nat)
    requires WellFormed(m, rank, l, ph, body)
    requires b in l.blocks && k < |body[b]|
    ensures WellFormed(m, rank, l, ph, Hoist(body, ph, b, k))
    ensures forall x :: x in l.blocks && x < |body| ==> multiset(Hoist(body, ph, b, k)[x]) <= multiset(body[x])
  {
    var next := Hoist(body, ph, b, k);
    forall x | x in l.blocks && x < |body|
      ensures multiset(next[x]) <= multiset(body[x])
    {
      if x == b {
        assert multiset(next[b]) + multiset{body[b][k]} == multiset(body[b]);
      }
    }
  }

  /** After hoisting the k-th instruction, each later one sits one place earlier and still qualifies if it did. */
  lemma HoistKeepsLaterQualifying(m: Module, rank: map<string, nat>, l: Loop, ph: nat, body: Body, b: nat, k: nat)
    requires WellFormed(m, rank, l, ph, body)
    requires b in l.blocks && k < |body[b]|
    ensures forall j :: k < j < |body[b]| && Qualifies(m, rank, l, body, body[b][j]) ==>
      Hoist(body, ph, b, k)[b][j - 1] == body[b][j] && Qualifies(m, rank, l, Hoist(body, ph, b, k), body[b][j])
  {
    var next := Hoist(body, ph, b, k);
    HoistShrinksLoop(m, rank, l, ph, body, b, k);
    forall j | k < j < |body[b]| && Qualifies(m, rank, l, body, body[b][j])
      ensures next[b][j - 1] == body[b][j]
      ensures Qualifies(m, rank, l, next, body[b][j])
    {
      assert next[b] == body[b][..k] + body[b][k + 1..];
      InvariantPersists(l, body, next, body[b][j]);
    }
  }

  /**
    The scan of one block misses nothing: every instruction from position k
    on that qualifies in the incoming body is moved, since hoisting earlier
    instructions only makes operands more invariant.
  */
  lemma {:induction false} HoistBlockMovesAll(m: Module, rank: map<string, nat>, l: Loop, ph: nat, body: Body, b: nat, k: nat)
    requires WellFormed(m, rank, l, ph, body)
    requires b in l.blocks && !InSubLoop(l, b) && k <= |body[b]|
    decreases |body[b]| - k, 1
    ensures forall j :: k <= j < |body[b]| && Qualifies(m, rank, l, body, body[b][j]) ==>
      body[b][j] in HoistBlock(m, rank, l, ph, body, b, k).moved
  {
    if k < |body[b]| {
      if Qualifies(m, rank, l, body, body[b][k]) {
        HoistedMovesAll(m, rank, l, ph, body, b, k);
      } else {
        var rest := HoistBlock(m, rank, l, ph, body, b, k + 1);
        assert HoistBlock(m, rank, l, ph, body, b, k) == rest;
        HoistBlockMovesAll(m, rank, l, ph, body, b, k + 1);
        forall j | k <= j < |body[b]| && Qualifies(m, rank, l, body, body[b][j])
          ensures body[b][j] in rest.moved
        {
          assert j != k;
        }
      }
    }
  }

  /** The case of HoistBlockMovesAll where the k-th instruction qualifies and is hoisted. */
  lemma {:induction false} HoistedMovesAll(m: Module, rank: map<string, nat>, l: Loop, ph: nat, body: Body, b: nat, k: nat)
    requires WellFormed(m, rank, l, ph, body)
    requires b in l.blocks && !InSubLoop(l, b) && k < |body[b]|
    requires Qualifies(m, rank, l, body, body[b][k])
    decreases |body[b]| - k, 0
    ensures forall j :: k <= j < |body[b]| && Qualifies(m, rank, l, body, body[b][j]) ==>
      body[b][j] in HoistBlock(m, rank, l, ph, body, b, k).moved
  {
    var next := Hoist(body, ph, b, k);
    HoistShrinksLoop(m, rank, l, ph, body, b, k);
    HoistBlockMovesAll(m, rank, l, ph, next, b, k);
    HoistKeepsLaterQualifying(m, rank, l, ph, body, b, k);
    var rest := HoistBlock(m, rank, l, ph, next, b, k).moved;
    assert HoistBlock(m, rank, l, ph, body, b, k).moved == [body[b][k]] + rest;
    forall j | k <= j < |body[b]| && Qualifies(m, rank, l, body, body[b][j])
      ensures body[b][j] in [body[b][k]] + rest
    {
      if j > k {
        assert next[b][j - 1] == body[b][j];
        assert body[b][j] in rest;
      }
    }
  }

  /** Every instruction of a block the walk from n scans that qualifies in the incoming body is moved. */
  lemma {:induction false} HoistRegionMovesAll(m: Module, rank: map<string, nat>, l: Loop, ph: nat, n: DomTree, body: Body)
    requires WellFormed(m, rank, l, ph, body)
    decreases n, |n.children| + 2
    ensures MovesAll(m, rank, l, body, Region(l, n), HoistRegion(m, rank, l, ph, n, body).moved)
  {
    if n.block in l.blocks && !InSubLoop(l, n.block) {
      var here := HoistBlock(m, rank, l, ph, body, n.block, 0);
      HoistBlockMovesAll(m, rank, l, ph, body, n.block, 0);
      assert MovesAll(m, rank, l, body, {n.block}, here.moved);
      HoistChildrenMovesAll(m, rank, l, ph, n, 0, here.body);
      ChildRegionsInLoop(l, n, 0);
      var below := HoistChildren(m, rank, l, ph, n, 0, here.body);
      MovesAllThen(m, rank, l, ph, body, here.body, here.moved, {n.block}, below.moved, ChildRegions(l, n, 0));
      assert HoistRegion(m, rank, l, ph, n, body).moved == here.moved + below.moved;
    }
  }

  lemma {:induction false} HoistChildrenMovesAll(m: Module, rank: map<string, nat>, l: Loop, ph: nat, n: DomTree, c: nat, body: Body)
    requires WellFormed(m, rank, l, ph, body)
    requires c <= |n.children|
    decreases n, |n.children| - c
    ensures MovesAll(m, rank, l, body, ChildRegions(l, n, c), HoistChildren(m, rank, l, ph, n, c, body).moved)
  {
    if c < |n.children| {
      var first := HoistRegion(m, rank, l, ph, n.children[c], body);
      HoistRegionMovesAll(m, rank, l, ph, n.children[c], body);
      HoistChildrenMovesAll(m, rank, l, ph, n, c + 1, first.body);
      ChildRegionsInLoop(l, n, c + 1);
      var rest := HoistChildren(m, rank, l, ph, n, c + 1, first.body);
      MovesAllThen(m, rank, l, ph, body, first.body, first.moved, Region(l, n.children[c]), rest.moved, ChildRegions(l, n, c + 1));
      assert HoistChildren(m, rank, l, ph, n, c, body).moved == first.moved + rest.moved;
    }
  }

  /** What the pass needs of its inputs; the preheader, if there is one, ends in a terminator. */
  predicate LoopWellFormed(m: Module, rank: map<string, nat>, l: Loop, body: Body)
  {
    && Acyclic(m, rank)
    && (forall x :: x in l.blocks ==> x < |body|)
    && (l.preheader.Some? ==>
          var ph := l.preheader.value;
          ph < |body| && ph !in l.blocks && |body[ph]| > 0 && IsTerminator(Last(body[ph]).opcode))
  }

  /** The pass's result: the transformed body and whether anything changed. */
  datatype LoopRun = LoopRun(body: Body, changed: bool)

  /**
    runOnLoop: without a preheader nothing happens. Otherwise the region under
    the header's dominator tree node is hoisted, and the result reports
    whether anything moved.
  */
  function RunOnLoop(m: Module, rank: map<string, nat>, l: Loop, header: DomTree, body: Body): (r: LoopRun)
    requires LoopWellFormed(m, rank, l, body)
    ensures l.preheader.None? ==> r == LoopRun(body, false)
    ensures |r.body| == |body|
    ensures r.changed <==> r.body != body
    ensures r.changed <==>
      l.preheader.Some? && exists b :: b in Region(l, header) && !QuietFrom(m, rank, l, body, b, 0)
    ensures multiset(Flatten(r.body)) == multiset(Flatten(body))
    ensures forall x :: 0 <= x < |body| && (x in l.blocks ==> InSubLoop(l, x)) && Some(x) != l.preheader ==>
      r.body[x] == body[x]
    ensures forall x :: 0 <= x < |body| && x !in Region(l, header) && Some(x) != l.preheader ==> r.body[x] == body[x]
    ensures forall x :: x in l.blocks ==> multiset(r.body[x]) <= multiset(body[x])
    ensures l.preheader.Some? ==> (
      var ph := l.preheader.value;
      && |r.body[ph]| >= |body[ph]|
      && r.body[ph][..|body[ph]| - 1] == Init(body[ph])
      && Last(r.body[ph]) == Last(body[ph])
      && forall j :: |body[ph]| - 1 <= j < |r.body[ph]| - 1 ==>
           CanHoistInst(m, rank, r.body[ph][j]) && IsLoopInvariantInst(l, r.body, r.body[ph][j]))
  {
    match l.preheader
    case None => LoopRun(body, false)
    case Some(ph) =>
      var h := HoistRegion(m, rank, l, ph, header, body);
      StepPreheader(m, rank, l, ph, body, h.body, h.moved);
      LoopRun(h.body, |h.moved| > 0)
  }

  /** A run over a loop none of whose scanned blocks holds a qualifying instruction changes nothing. */
  lemma RunOnLoopQuiet(m: Module, rank: map<string, nat>, l: Loop, header: DomTree, body: Body)
    requires LoopWellFormed(m, rank, l, body)
    requires forall b :: b in Region(l, header) ==> QuietFrom(m, rank, l, body, b, 0)
    ensures RunOnLoop(m, rank, l, header, body) == LoopRun(body, false)
  {
    var r := RunOnLoop(m, rank, l, header, body);
    assert !r.changed;
  }

  /** What a step of the pass leaves in the preheader, and that it changed the body exactly when it moved something. */
  lemma StepPreheader(m: Module, rank: map<string, nat>, l: Loop, ph: nat, body: Body, after: Body, moved: seq<Inst>)
    requires WellFormed(m, rank, l, ph, body)
    requires HoistStep(m, rank, l, ph, body, after, moved)
    ensures |moved| > 0 <==> after != body
    ensures |after[ph]| >= |body[ph]|
    ensures after[ph][..|body[ph]| - 1] == Init(body[ph])
    ensures Last(after[ph]) == Last(body[ph])
    ensures forall j :: |body[ph]| - 1 <= j < |after[ph]| - 1 ==>
      CanHoistInst(m, rank, after[ph][j]) && IsLoopInvariantInst(l, after, after[ph][j])
  {
    InsertedSlice(Init(body[ph]), moved, Last(body[ph]));
    assert |moved| > 0 ==> |after[ph]| != |body[ph]|;
    forall j | |body[ph]| - 1 <= j < |after[ph]| - 1
      ensures CanHoistInst(m, rank, after[ph][j]) && IsLoopInvariantInst(l, after, after[ph][j])
    {
      assert after[ph][j] == moved[j - (|body[ph]| - 1)];
    }
  }

  /** Where the moved instructions sit in a preheader that received them before its last instruction. */
  lemma InsertedSlice<T>(front: seq<T>, moved: seq<T>, last: T)
    ensures (front + moved + [last])[..|front|] == front
    ensures (front + moved + [last])[|front| .. |front| + |moved|] == moved
    ensures forall j :: |front| <= j < |front| + |moved| ==> (front + moved + [last])[j] == moved[j - |front|]
  {
  }

  /** The pass keeps the order of what stays in each loop block, and every block keeps its terminator last. */
  lemma RunOnLoopKeepsOrder(m: Module, rank: map<string, nat>, l: Loop, header: DomTree, body: Body)
    requires LoopWellFormed(m, rank, l, body)
    ensures KeepsOrder(l, body, RunOnLoop(m, rank, l, header, body).body)
  {
    match l.preheader
    case None => KeepsOrderRefl(l, body);
    case Some(ph) => HoistRegionKeepsOrder(m, rank, l, ph, header, body);
  }

  /**
    With a preheader, every instruction of a block in the header's region
    that qualifies in the incoming body ends up among the instructions the
    pass inserted before the preheader's terminator.
  */
  lemma RunOnLoopMovesAll(m: Module, rank: map<string, nat>, l: Loop, header: DomTree, body: Body)
    requires LoopWellFormed(m, rank, l, body)
    ensures l.preheader.Some? ==> (
      var ph := l.preheader.value;
      var after := RunOnLoop(m, rank, l, header, body).body;
      MovesAll(m, rank, l, body, Region(l, header), after[ph][|body[ph]| - 1 .. |after[ph]| - 1]))
  {
    if l.preheader.Some? {
      var ph := l.preheader.value;
      var h := HoistRegion(m, rank, l, ph, header, body);
      HoistRegionMovesAll(m, rank, l, ph, header, body);
      assert h.body[ph][|body[ph]| - 1 .. |h.body[ph]| - 1] == h.moved;
    }
  }
}

=== FILE: ir.dfy ===
/**
  An abstraction of the parts of LLVM IR that the hoister and the kernel
  dimension extractor inspect: integer constants, values, instructions with
  an opcode and an ordered operand list, blocks, functions and modules with
  their named metadata.
*/
module IR {
  import opened Wrappers

  /** 2 to the power n. */
  function Pow2(n: nat): (r: nat)
    ensures r >= 1
  {
    if n == 0 then 1 else 2 * Pow2(n - 1)
  }

  /** The number of bit patterns of a 32-bit integer. */
  lemma Pow2Of32()
    ensures Pow2(32) == 0x1_0000_0000
  {
    assert Pow2(4) == 16;
    assert Pow2(8) == 256;
    assert Pow2(12) == 4096;
    assert Pow2(16) == 65536;
    assert Pow2(20) == 1048576;
    assert Pow2(24) == 16777216;
    assert Pow2(28) == 268435456;
  }

  datatype IntConst = IntConst(width: nat, bits: nat)

  /** An llvm::ConstantInt: the width of its integer type and its bit pattern read as unsigned. */
  type ConstantInt = c: IntConst | 1 <= c.width && c.bits < Pow2(c.width) witness IntConst(1, 0)

  /** getZExtValue: the bit pattern read as an unsigned number. */
  function ZExtValue(c: ConstantInt): nat
  {
    c.bits
  }

  /** getSExtValue: the bit pattern read in two's complement. */
  function SExtValue(c: ConstantInt): (r: int)
    ensures -(Pow2(c.width - 1) as int) <= r < Pow2(c.width - 1)
    ensures r == c.bits || r == c.bits - Pow2(c.width)
    ensures r > 0 <==> 0 < c.bits < Pow2(c.width - 1)
  {
    if c.bits >= Pow2(c.width - 1) then c.bits - Pow2(c.width) else c.bits
  }

  datatype Type =
    | IntegerTy(width: nat)
    | PointerTy(pointee: Type)
    | StructTy(name: string)
    | FloatingTy
    | VoidTy

  /** An instruction operand. Instructions are referred to by their id. */
  datatype Value =
    | Const(c: ConstantInt)
    | Argument(name: string, ty: Type)
    | GlobalVar(name: string, valueType: Type)
    | InstRef(id: nat)

  /**
    The type of a value. Instruction result types are not part of the
    abstraction, so an instruction reference has no known type.
  */
  function TypeOf(v: Value): Option<Type>
  {
    match v
    case Const(c) => Some(IntegerTy(c.width))
    case Argument(_, ty) => Some(ty)
    case GlobalVar(_, ty) => Some(PointerTy(ty))
    case InstRef(_) => None
  }

  /** getName: constants and (in this abstraction) instructions are unnamed. */
  function NameOf(v: Value): string
  {
    match v
    case Argument(name, _) => name
    case GlobalVar(name, _) => name
    case _ => ""
  }

  /** The called function of a call: a named function, or the computed value an indirect call goes through. */
  datatype Callee = Indirect(target: Value) | Direct(name: string)

  datatype BinaryOp =
    | Add | FAdd | Sub | FSub | Mul | FMul
    | UDiv | SDiv | FDiv | URem | SRem | FRem
    | Shl | LShr | AShr | And | Or | Xor

  datatype CastOp =
    | Trunc | ZExt | SExt | FPToUI | FPToSI | UIToFP | SIToFP
    | FPTrunc | FPExt | PtrToInt | IntToPtr | BitCast | AddrSpaceCast

  datatype IntPredicate = EQ | NE | UGT | UGE | ULT | ULE | SGT | SGE | SLT | SLE

  /**
    The instruction kinds. As in LLVM 3.x, an invoke is a terminator and not a
    call instruction; a call of an intrinsic is a call whose callee is the
    intrinsic's declaration.
  */
  datatype Opcode =
    | Ret | Br | Switch | Unreachable | Invoke(invoked: Callee)
    | Binary(bop: BinaryOp)
    | Cast(cop: CastOp)
    | ICmp(pred: IntPredicate)
    | FCmp
    | Load
    | Store
    | Call(callee: Callee)
    | GetElementPtr
    | Alloca
    | Phi
    | Select
    | OtherInst

  predicate IsTerminator(op: Opcode)
  {
    op.Ret? || op.Br? || op.Switch? || op.Unreachable? || op.Invoke?
  }

  /** An instruction: its identity, its kind and its operands (for a call, the arguments). */
  datatype Inst = Inst(id: nat, opcode: Opcode, operands: seq<Value>)

  type Block = seq<Inst>

  /**
    User::getNumOperands and getOperand: the listed operands, then, for a call
    or invoke through a computed value, that value. A direct callee is a
    function constant, which no loop defines, and is left out.
  */
  function AllOperands(i: Inst): (r: seq<Value>)
    ensures |r| >= |i.operands| && r[..|i.operands|] == i.operands
    ensures |r| > |i.operands| <==> (i.opcode.Call? && i.opcode.callee.Indirect?) || (i.opcode.Invoke? && i.opcode.invoked.Indirect?)
  {
    match i.opcode
    case Call(Indirect(v)) => i.operands + [v]
    case Invoke(Indirect(v)) => i.operands + [v]
    case _ => i.operands
  }

  /** A function; a declaration has no body. */
  datatype Function = Function(name: string, body: Option<seq<Block>>)

  /** A metadata operand: a function, a string, an integer constant, or anything else. */
  datatype MDOperand = MDFunction(name: string) | MDString(s: string) | MDConst(c: ConstantInt) | MDOther

  type MDNode = seq<MDOperand>

  /** A module: its functions in module order and its named metadata tables. */
  datatype Module = Module(functions: seq<Function>, namedMetadata: map<string, seq<MDNode>>)

  /** The instructions of a list of blocks, block after block. */
  function Flatten(blocks: seq<Block>): (r: seq<Inst>)
    ensures |blocks| == 0 ==> r == []
  {
    if |blocks| == 0 then [] else blocks[0] + Flatten(blocks[1..])
  }

  /** Replacing one block changes the instructions of the whole body by exactly that block's contents. */
  lemma {:induction false} FlattenUpdate(blocks: seq<Block>, x: nat, blk: Block)
    requires x < |blocks|
    ensures multiset(Flatten(blocks[x := blk])) + multiset(blocks[x])
         == multiset(Flatten(blocks)) + multiset(blk)
  {
    var updated := blocks[x := blk];
    if x == 0 {
      assert updated[1..] == blocks[1..];
    } else {
      var rest := blocks[1..];
      assert updated[1..] == rest[x - 1 := blk];
      assert rest[x - 1] == blocks[x];
      FlattenUpdate(rest, x - 1, blk);
      assert Flatten(blocks) == blocks[0] + Flatten(rest);
      assert Flatten(updated) == updated[0] + Flatten(updated[1..]);
      calc {
        multiset(Flatten(updated)) + multiset(blocks[x]);
        multiset(blocks[0]) + (multiset(Flatten(rest[x - 1 := blk])) + multiset(rest[x - 1]));
        multiset(blocks[0]) + (multiset(Flatten(rest)) + multiset(blk));
        multiset(Flatten(blocks)) + multiset(blk);
      }
    }
  }

  /**
    Whether a function is only declared: GlobalValue::isDeclaration holds for
    a function without blocks, whether or not a body was ever attached.
  */
  predicate IsDeclaration(f: Function)
  {
    f.body.None? || |f.body.value| == 0
  }

  /**
    Whether a is what remains of b after deleting some of its elements,
    the others keeping their order (matched greedily from the front).
  */
  predicate IsSubsequence<T(==)>(a: seq<T>, b: seq<T>)
    decreases |b|
  {
    if |a| == 0 then true
    else if |b| == 0 then false
    else if a[0] == b[0] then IsSubsequence(a[1..], b[1..])
    else IsSubsequence(a, b[1..])
  }

  lemma {:induction false} SubsequenceRefl<T>(a: seq<T>)
    ensures IsSubsequence(a, a)
    decreases |a|
  {
    if |a| > 0 {
      SubsequenceRefl(a[1..]);
    }
  }

  /** Putting an element in front of the longer sequence keeps a subsequence. */
  lemma {:induction false} SubsequenceExtend<T>(a: seq<T>, b: seq<T>)
    requires |b| > 0 && IsSubsequence(a, b[1..])
    ensures IsSubsequence(a, b)
    decreases |b|, |a|, 1
  {
    if |a| > 0 && a[0] == b[0] {
      SubsequenceDropHead(a, b[1..]);
    }
  }

  /** Dropping the first element of the shorter sequence keeps a subsequence. */
  lemma {:induction false} SubsequenceDropHead<T>(a: seq<T>, b: seq<T>)
    requires |a| > 0 && IsSubsequence(a, b)
    ensures IsSubsequence(a[1..], b)
    decreases |b|, |a|, 0
  {
    assert |b| > 0;
    if a[0] == b[0] {
      SubsequenceExtend(a[1..], b);
    } else {
      SubsequenceDropHead(a, b[1..]);
      SubsequenceExtend(a[1..], b);
    }
  }

  lemma {:induction false} SubsequenceTrans<T>(a: seq<T>, b: seq<T>, c: seq<T>)
    requires IsSubsequence(a, b) && IsSubsequence(b, c)
    ensures IsSubsequence(a, c)
    decreases |c|
  {
    if |a| > 0 {
      assert |b| > 0 && |c| > 0;
      if b[0] == c[0] {
        if a[0] == b[0] {
          SubsequenceTrans(a[1..], b[1..], c[1..]);
        } else {
          SubsequenceTrans(a, b[1..], c[1..]);
          SubsequenceExtend(a, c);
        }
      } else {
        SubsequenceTrans(a, b, c[1..]);
        SubsequenceExtend(a, c);
      }
    }
  }

  /** Matching first elements extend a subsequence. */
  lemma SubsequenceCons<T>(x: T, a: seq<T>, b: seq<T>)
    requires |b| > 0 && b[0] == x && IsSubsequence(a, b[1..])
    ensures IsSubsequence([x] + a, b)
  {
    assert ([x] + a)[1..] == a;
  }

  /** Anything in front of the longer sequence keeps a subsequence. */
  lemma {:induction false} SubsequencePrefixed<T>(a: seq<T>, front: seq<T>, b: seq<T>)
    requires IsSubsequence(a, b)
    ensures IsSubsequence(a, front + b)
    decreases |front|
  {
    if |front| == 0 {
      assert front + b == b;
    } else {
      assert (front + b)[1..] == front[1..] + b;
      SubsequencePrefixed(a, front[1..], b);
      SubsequenceExtend(a, front + b);
    }
  }

  /** Subsequences of two sequences, put together, are a subsequence of the two put together. */
  lemma {:induction false} SubsequenceConcat<T>(a: seq<T>, b: seq<T>, c: seq<T>, d: seq<T>)
    requires IsSubsequence(a, b) && IsSubsequence(c, d)
    ensures IsSubsequence(a + c, b + d)
    decreases |b|
  {
    if |a| == 0 {
      assert a + c == c;
      SubsequencePrefixed(c, b, d);
    } else {
      assert |b| > 0;
      assert (b + d)[0] == b[0] && (b + d)[1..] == b[1..] + d;
      assert (a + c)[0] == a[0];
      if a[0] == b[0] {
        assert (a + c)[1..] == a[1..] + c;
        SubsequenceConcat(a[1..], b[1..], c, d);
      } else {
        SubsequenceConcat(a, b[1..], c, d);
      }
    }
  }

  /** Deleting the element at position k leaves a subsequence. */
  lemma {:induction false} SubsequenceDelete<T>(s: seq<T>, k: nat)
    requires k < |s|
    ensures IsSubsequence(s[..k] + s[k + 1..], s)
    decreases k
  {
    var a := s[..k] + s[k + 1..];
    if k == 0 {
      assert a == s[1..];
      SubsequenceRefl(s[1..]);
      SubsequenceExtend(a, s);
    } else {
      var t := s[1..];
      assert a[0] == s[0];
      assert a[1..] == t[..k - 1] + t[k..];
      SubsequenceDelete(t, k - 1);
    }
  }

  /** Every instruction of a function, in block order; a declaration has none. */
  function Instructions(f: Function): seq<Inst>
  {
    if f.body.Some? then Flatten(f.body.value) else []
  }

  /** Module::getFunction: the position of the first function with the given name. */
  function FindFunction(fs: seq<Function>, name: string): (r: Option<nat>)
    ensures r.Some? ==> r.value < |fs| && fs[r.value].name == name
    ensures r.Some? ==> forall k :: 0 <= k < r.value ==> fs[k].name != name
    ensures r.None? ==> forall k :: 0 <= k < |fs| ==> fs[k].name != name
  {
    if |fs| == 0 then None
    else if fs[0].name == name then Some(0)
    else match FindFunction(fs[1..], name)
      case None => None
      case Some(k) => Some(k + 1)
  }

  /** StringRef::startswith. */
  predicate StartsWith(s: string, prefix: string)
  {
    |prefix| <= |s| && s[..|prefix|] == prefix
  }
}

=== FILE: language_data.dfy ===
/**
  Language data of GPU kernels: whether a function is a kernel entry point,
  according to the module's named metadata, and the launch geometry of a
  kernel, recovered from marker functions whose names start with "__axiom"
  and whose single block encodes one dimension as a fixed instruction
  pattern (one pattern for OpenCL, one for CUDA).
*/
module LanguageData {
  import opened Wrappers
  import opened IR

  /** LanguageData::SourceLanguage, without the SL_Count sentinel. */
  datatype SourceLanguage = C | CUDA | OpenCL

  /** The enumerators' integer values, in declaration order. */
  function Enumerator(sl: SourceLanguage): nat
  {
    match sl
    case C => 0
    case CUDA => 1
    case OpenCL => 2
  }

  /**
    The guard of the nvvm.annotations lookup, `SL == SL_CUDA || SL_OpenCL`:
    the right operand is the enumerator itself converted to bool, not a
    comparison with SL.
  */
  predicate AnnotationsGuard(sl: SourceLanguage)
  {
    sl == CUDA || Enumerator(OpenCL) != 0
  }

  /** The guard holds for every source language, C included. */
  lemma AnnotationsGuardAlwaysHolds(sl: SourceLanguage)
    ensures AnnotationsGuard(sl)
  {
  }

  const NvvmAnnotations: string := "nvvm.annotations"
  const OpenCLKernels: string := "opencl.kernels"
  const KernelTag: MDOperand := MDString("kernel")

  /** The entries of a named metadata table; a missing table has none. */
  function Table(m: Module, key: string): seq<MDNode>
  {
    if key in m.namedMetadata then m.namedMetadata[key] else []
  }

  /**
    What the lookups read without going out of bounds: every entry has an
    operand 0, and an nvvm.annotations entry naming F has an odd number of
    operands, so that stepping through its odd positions two at a time meets
    the end.
  */
  predicate AnnotationsReadable(m: Module, f: Function)
  {
    var t := Table(m, NvvmAnnotations);
    forall i :: 0 <= i < |t| ==> |t[i]| >= 1 && (t[i][0] == MDFunction(f.name) ==> |t[i]| % 2 == 1)
  }

  predicate KernelListReadable(m: Module)
  {
    var t := Table(m, OpenCLKernels);
    forall i :: 0 <= i < |t| ==> |t[i]| >= 1
  }

  /** Some nvvm.annotations entry names F and carries the tag "kernel" at an odd position. */
  ghost predicate AnnotatedKernel(m: Module, f: Function)
  {
    var t := Table(m, NvvmAnnotations);
    exists i, j :: 0 <= i < |t| && 1 <= j < |t[i]| && j % 2 == 1 && t[i][0] == MDFunction(f.name) && t[i][j] == KernelTag
  }

  /** Some opencl.kernels entry names F. */
  ghost predicate ListedKernel(m: Module, f: Function)
  {
    var t := Table(m, OpenCLKernels);
    exists i :: 0 <= i < |t| && |t[i]| >= 1 && t[i][0] == MDFunction(f.name)
  }

  /** The inner loop over positions fi, fi + 2, ... of one entry. */
  function KernelTagFrom(e: MDNode, fi: nat): (r: bool)
    requires |e| % 2 == 1 && fi % 2 == 1 && fi <= |e|
    decreases |e| - fi
    ensures r <==> exists j :: fi <= j < |e| && j % 2 == 1 && e[j] == KernelTag
  {
    if fi == |e| then false
    else if e[fi] == KernelTag then true
    else
      var rest := KernelTagFrom(e, fi + 2);
      assert forall j :: fi <= j < |e| && j % 2 == 1 ==> j == fi || fi + 2 <= j;
      rest
  }

  /** The outer loop over the nvvm.annotations entries from the i-th on. */
  function ScanAnnotations(t: seq<MDNode>, f: Function, i: nat): (r: bool)
    requires i <= |t|
    requires forall i' :: 0 <= i' < |t| ==> |t[i']| >= 1 && (t[i'][0] == MDFunction(f.name) ==> |t[i']| % 2 == 1)
    decreases |t| - i
    ensures r <==> exists i', j :: (i <= i' < |t| && 1 <= j < |t[i']| && j % 2 == 1 &&
      t[i'][0] == MDFunction(f.name) && t[i'][j] == KernelTag)
  {
    if i == |t| then false
    else if t[i][0] == MDFunction(f.name) && KernelTagFrom(t[i], 1) then true
    else ScanAnnotations(t, f, i + 1)
  }

  /** The loop over the opencl.kernels entries from the i-th on. */
  function ScanKernels(t: seq<MDNode>, f: Function, i: nat): (r: bool)
    requires i <= |t|
    requires forall i' :: 0 <= i' < |t| ==> |t[i']| >= 1
    decreases |t| - i
    ensures r <==> exists i' :: i <= i' < |t| && t[i'][0] == MDFunction(f.name)
  {
    if i == |t| then false
    else if t[i][0] == MDFunction(f.name) then true
    else ScanKernels(t, f, i + 1)
  }

  /**
    isGPUEntryPoint. Because the guard of the first lookup always holds, a
    function tagged "kernel" in nvvm.annotations is an entry point whatever
    the source language; opencl.kernels is consulted for OpenCL only.
  */
  function IsGPUEntryPoint(f: Function, m: Module, sl: SourceLanguage): (r: bool)
    requires AnnotationsReadable(m, f)
    requires sl == OpenCL ==> KernelListReadable(m)
    ensures r <==> AnnotatedKernel(m, f) || (sl == OpenCL && ListedKernel(m, f))
  {
    if AnnotationsGuard(sl) && ScanAnnotations(Table(m, NvvmAnnotations), f, 0) then true
    else if sl == OpenCL && ScanKernels(Table(m, OpenCLKernels), f, 0) then true
    else false
  }

  /**
    The per-dialect gating the guard evidently intends: nvvm.annotations for
    CUDA and OpenCL, opencl.kernels for OpenCL, nothing for C.
  */
  function IsGPUEntryPointPerDialect(f: Function, m: Module, sl: SourceLanguage): (r: bool)
    requires AnnotationsReadable(m, f)
    requires sl == OpenCL ==> KernelListReadable(m)
    ensures sl == C ==> !r
    ensures r <==> ((sl == CUDA || sl == OpenCL) && AnnotatedKernel(m, f)) || (sl == OpenCL && ListedKernel(m, f))
  {
    if (sl == CUDA || sl == OpenCL) && ScanAnnotations(Table(m, NvvmAnnotations), f, 0) then true
    else if sl == OpenCL && ScanKernels(Table(m, OpenCLKernels), f, 0) then true
    else false
  }

  /** The two versions differ exactly on C code whose function nvvm.annotations tags as a kernel. */
  lemma PerDialectDiffersOnlyForC(f: Function, m: Module, sl: SourceLanguage)
    requires AnnotationsReadable(m, f)
    requires sl == OpenCL ==> KernelListReadable(m)
    ensures IsGPUEntryPointPerDialect(f, m, sl) != IsGPUEntryPoint(f, m, sl) <==> sl == C && AnnotatedKernel(m, f)
  {
  }

  /** A C module whose nvvm.annotations tags main as a kernel: the source reports an entry point. */
  lemma CFunctionTaggedInAnnotationsIsEntryPoint()
    ensures (var f := Function("main", None);
      var m := Module([f], map[NvvmAnnotations := [[MDFunction("main"), KernelTag, MDOther]]]);
      IsGPUEntryPoint(f, m, C) && !IsGPUEntryPointPerDialect(f, m, C))
  {
    var f := Function("main", None);
    var m := Module([f], map[NvvmAnnotations := [[MDFunction("main"), KernelTag, MDOther]]]);
    var t := Table(m, NvvmAnnotations);
    assert t[0][0] == MDFunction(f.name) && t[0][1] == KernelTag;
    assert AnnotatedKernel(m, f);
  }

  // ---------------------------------------------------------------------
  // Kernel dimensions

  type Axis = d: nat | d < 3

  /** Three optional constants, one per axis; None is the null pointer. */
  type Slots = s: seq<Option<ConstantInt>> | |s| == 3 witness [None, None, None]

  /** KernelDimensions: threads per group and groups per grid on each axis, and their bit width. */
  datatype KernelDimensions = KernelDimensions(local: Slots, group: Slots, bitwidth: nat)

  datatype Role = Local | Group

  function Slot(kd: KernelDimensions, role: Role, d: Axis): Option<ConstantInt>
  {
    match role
    case Local => kd.local[d]
    case Group => kd.group[d]
  }

  /** The starting value of an extraction: every slot unset and bit width 0. */
  const Unset: KernelDimensions := KernelDimensions([None, None, None], [None, None, None], 0)

  /** What one marker function establishes: one slot's value. */
  datatype Axiom = Axiom(role: Role, dim: Axis, value: ConstantInt)

  /** Writing a matched axiom: its slot gets its value, the bit width becomes its width, nothing else changes. */
  function Record(kd: KernelDimensions, a: Axiom): (r: KernelDimensions)
    ensures Slot(r, a.role, a.dim) == Some(a.value)
    ensures r.bitwidth == a.value.width
    ensures forall role, d: Axis :: (role != a.role || d != a.dim) ==> Slot(r, role, d) == Slot(kd, role, d)
  {
    match a.role
    case Local => kd.(local := kd.local[a.dim := Some(a.value)], bitwidth := a.value.width)
    case Group => kd.(group := kd.group[a.dim := Some(a.value)], bitwidth := a.value.width)
  }

  // OpenCL

  /** The OpenCL query function that reads a slot of the given role. */
  function QueryName(role: Role): string
  {
    match role
    case Local => "get_local_size"
    case Group => "get_num_groups"
  }

  /**
    The OpenCL pattern: a single block whose first three instructions are a
    direct call of the role's query function with a constant axis as first
    argument, an icmp eq whose second operand is the value, and a ret.
  */
  ghost predicate IsOpenCLAxiom(f: Function, a: Axiom)
  {
    && f.body.Some? && |f.body.value| == 1
    && var insts := f.body.value[0];
    && |insts| >= 3
    && insts[0].opcode == Call(Direct(QueryName(a.role)))
    && |insts[0].operands| >= 1 && insts[0].operands[0].Const? && ZExtValue(insts[0].operands[0].c) == a.dim
    && insts[1].opcode == ICmp(EQ)
    && |insts[1].operands| >= 2 && insts[1].operands[1] == Const(a.value)
    && insts[2].opcode == Ret
  }

  /**
    The checks of extractOpenCLAxiom in their order, each giving up on a
    mismatch. A call without arguments, a comparison with fewer than two
    operands or a block that ends early (all impossible in valid IR) do not
    match either. The comparison's first operand is not checked.
  */
  function MatchOpenCLAxiom(f: Function): (r: Option<Axiom>)
    ensures r.Some? ==> IsOpenCLAxiom(f, r.value)
    ensures forall a :: IsOpenCLAxiom(f, a) ==> r == Some(a)
  {
    if f.body.None? || |f.body.value| != 1 then None
    else
      var insts := f.body.value[0];
      if |insts| == 0 || !insts[0].opcode.Call? || insts[0].opcode.callee.Indirect? then None
      else
        var fnName := insts[0].opcode.callee.name;
        if |insts[0].operands| == 0 || !insts[0].operands[0].Const? || ZExtValue(insts[0].operands[0].c) >= 3 then None
        else
          var dim: Axis := ZExtValue(insts[0].operands[0].c);
          if |insts| < 2 || insts[1].opcode != ICmp(EQ) then None
          else if |insts[1].operands| < 2 || !insts[1].operands[1].Const? then None
          else
            var dimVal := insts[1].operands[1].c;
            if |insts| < 3 || insts[2].opcode != Ret then None
            else if fnName == QueryName(Local) then Some(Axiom(Local, dim, dimVal))
            else if fnName == QueryName(Group) then Some(Axiom(Group, dim, dimVal))
            else None
  }

  /** extractOpenCLAxiom: a matching function records its axiom; anything else leaves KD as it was. */
  function ExtractOpenCLAxiom(f: Function, kd: KernelDimensions): (r: KernelDimensions)
    ensures (forall a :: !IsOpenCLAxiom(f, a)) ==> r == kd
    ensures forall a :: IsOpenCLAxiom(f, a) ==> r == Record(kd, a)
  {
    match MatchOpenCLAxiom(f)
    case None => kd
    case Some(a) => Record(kd, a)
  }

  // CUDA

  const VectorStructName: string := "struct._3DimensionalVector"

  /** The CUDA built-in variable that holds a slot of the given role. */
  function BuiltinName(role: Role): string
  {
    match role
    case Local => "blockDim"
    case Group => "gridDim"
  }

  /** The element type of a pointer-typed value. */
  function PointeeOf(v: Value): Option<Type>
  {
    match TypeOf(v)
    case Some(PointerTy(t)) => Some(t)
    case _ => None
  }

  /**
    The CUDA pattern: a single block whose first five instructions are an
    addrspacecast of the role's built-in variable of the 3-vector struct
    type, a three-operand getelementptr on that cast with indices 0 and the
    axis, a load from that address, an icmp eq whose second operand is the
    value, and a ret.
  */
  ghost predicate IsCUDAAxiom(f: Function, a: Axiom)
  {
    && f.body.Some? && |f.body.value| == 1
    && var insts := f.body.value[0];
    && |insts| >= 5
    && insts[0].opcode == Cast(AddrSpaceCast)
    && |insts[0].operands| >= 1
    && PointeeOf(insts[0].operands[0]) == Some(StructTy(VectorStructName))
    && NameOf(insts[0].operands[0]) == BuiltinName(a.role)
    && insts[1].opcode == GetElementPtr
    && |insts[1].operands| == 3
    && insts[1].operands[0] == InstRef(insts[0].id)
    && insts[1].operands[1].Const? && ZExtValue(insts[1].operands[1].c) == 0
    && insts[1].operands[2].Const? && ZExtValue(insts[1].operands[2].c) == a.dim
    && insts[2].opcode == Load
    && |insts[2].operands| >= 1 && insts[2].operands[0] == InstRef(insts[1].id)
    && insts[3].opcode == ICmp(EQ)
    && |insts[3].operands| >= 2 && insts[3].operands[1] == Const(a.value)
    && insts[4].opcode == Ret
  }

  /**
    The checks of extractCUDAAxiom in their order. A cast whose source is not
    a pointer to a struct, and blocks that end early, do not match. The
    comparison's first operand is not checked.
  */
  function MatchCUDAAxiom(f: Function): (r: Option<Axiom>)
    ensures r.Some? ==> IsCUDAAxiom(f, r.value)
    ensures forall a :: IsCUDAAxiom(f, a) ==> r == Some(a)
  {
    if f.body.None? || |f.body.value| != 1 then None
    else
      var insts := f.body.value[0];
      if |insts| == 0 || insts[0].opcode != Cast(AddrSpaceCast) || |insts[0].operands| == 0 then None
      else
        var cast := insts[0];
        if PointeeOf(cast.operands[0]) != Some(StructTy(VectorStructName)) then None
        else
          var structName := NameOf(cast.operands[0]);
          if |insts| < 2 || insts[1].opcode != GetElementPtr || |insts[1].operands| != 3
             || insts[1].operands[0] != InstRef(cast.id) then None
          else
            var gep := insts[1];
            if !gep.operands[1].Const? || ZExtValue(gep.operands[1].c) != 0 then None
            else if !gep.operands[2].Const? || ZExtValue(gep.operands[2].c) >= 3 then None
            else
              var dim: Axis := ZExtValue(gep.operands[2].c);
              if |insts| < 3 || insts[2].opcode != Load || |insts[2].operands| == 0
                 || insts[2].operands[0] != InstRef(gep.id) then None
              else if |insts| < 4 || insts[3].opcode != ICmp(EQ) then None
              else if |insts[3].operands| < 2 || !insts[3].operands[1].Const? then None
              else
                var dimVal := insts[3].operands[1].c;
                if |insts| < 5 || insts[4].opcode != Ret then None
                else if structName == BuiltinName(Local) then Some(Axiom(Local, dim, dimVal))
                else if structName == BuiltinName(Group) then Some(Axiom(Group, dim, dimVal))
                else None
  }

  /** extractCUDAAxiom: a matching function records its axiom; anything else leaves KD as it was. */
  function ExtractCUDAAxiom(f: Function, kd: KernelDimensions): (r: KernelDimensions)
    ensures (forall a :: !IsCUDAAxiom(f, a)) ==> r == kd
    ensures forall a :: IsCUDAAxiom(f, a) ==> r == Record(kd, a)
  {
    match MatchCUDAAxiom(f)
    case None => kd
    case Some(a) => Record(kd, a)
  }

  // Extraction over a module

  /** The dialects with a dimension extractor; a selector of its own keeps C out without a precondition on every fold and validation member. */
  datatype Dialect = OpenCLDialect | CUDADialect

  function MatchAxiom(d: Dialect, f: Function): Option<Axiom>
  {
    match d
    case OpenCLDialect => MatchOpenCLAxiom(f)
    case CUDADialect => MatchCUDAAxiom(f)
  }

  function ExtractAxiom(d: Dialect, f: Function, kd: KernelDimensions): KernelDimensions
  {
    match d
    case OpenCLDialect => ExtractOpenCLAxiom(f, kd)
    case CUDADialect => ExtractCUDAAxiom(f, kd)
  }

  const AxiomPrefix: string := "__axiom"

  predicate IsMarker(f: Function)
  {
    StartsWith(f.name, AxiomPrefix)
  }

  /**
    The loop over the module's functions in extractOpenCLDimensions and
    extractCUDADimensions: markers only, in module order.
  */
  function ExtractAll(d: Dialect, fs: seq<Function>, kd: KernelDimensions): KernelDimensions
  {
    if |fs| == 0 then kd
    else ExtractAll(d, fs[1..], if IsMarker(fs[0]) then ExtractAxiom(d, fs[0], kd) else kd)
  }

  /** The axiom a marker function establishes, if any; other functions establish none. */
  function MarkerAxiom(d: Dialect, f: Function): Option<Axiom>
  {
    if IsMarker(f) then MatchAxiom(d, f) else None
  }

  /** The value of the last function of fs whose axiom writes the given slot. */
  function LastValue(d: Dialect, fs: seq<Function>, role: Role, ax: Axis): Option<ConstantInt>
  {
    if |fs| == 0 then None
    else
      var later := LastValue(d, fs[1..], role, ax);
      if later.Some? then later
      else match MarkerAxiom(d, fs[0])
        case Some(a) => if a.role == role && a.dim == ax then Some(a.value) else None
        case None => None
  }

  /** The width of the value of the last function of fs that establishes any axiom. */
  function LastWidth(d: Dialect, fs: seq<Function>): Option<nat>
  {
    if |fs| == 0 then None
    else
      var later := LastWidth(d, fs[1..]);
      if later.Some? then later
      else match MarkerAxiom(d, fs[0])
        case Some(a) => Some(a.value.width)
        case None => None
  }

  lemma ExtractAxiomIsRecord(d: Dialect, f: Function, kd: KernelDimensions)
    ensures ExtractAxiom(d, f, kd) == (match MatchAxiom(d, f) case None => kd case Some(a) => Record(kd, a))
  {
  }

  /**
    Later markers overwrite earlier ones: after the fold, a slot holds the
    value of the last marker that writes it, or its starting value if none
    does, and likewise for the bit width.
  */
  lemma {:induction false} ExtractAllLastWins(d: Dialect, fs: seq<Function>, kd: KernelDimensions, role: Role, ax: Axis)
    ensures Slot(ExtractAll(d, fs, kd), role, ax) ==
      (match LastValue(d, fs, role, ax) case Some(v) => Some(v) case None => Slot(kd, role, ax))
    ensures ExtractAll(d, fs, kd).bitwidth ==
      (match LastWidth(d, fs) case Some(w) => w case None => kd.bitwidth)
  {
    LastSlotWins(d, fs, kd, role, ax);
    LastWidthWins(d, fs, kd);
  }

  lemma {:induction false} LastSlotWins(d: Dialect, fs: seq<Function>, kd: KernelDimensions, role: Role, ax: Axis)
    ensures Slot(ExtractAll(d, fs, kd), role, ax) ==
      (match LastValue(d, fs, role, ax) case Some(v) => Some(v) case None => Slot(kd, role, ax))
  {
    if |fs| > 0 {
      var next := if IsMarker(fs[0]) then ExtractAxiom(d, fs[0], kd) else kd;
      assert ExtractAll(d, fs, kd) == ExtractAll(d, fs[1..], next);
      LastSlotWins(d, fs[1..], next, role, ax);
      ExtractAxiomIsRecord(d, fs[0], kd);
      if LastValue(d, fs[1..], role, ax).None? {
        assert Slot(next, role, ax) ==
          (match MarkerAxiom(d, fs[0])
           case Some(a) => if a.role == role && a.dim == ax then Some(a.value) else Slot(kd, role, ax)
           case None => Slot(kd, role, ax));
      }
    }
  }

  lemma {:induction false} LastWidthWins(d: Dialect, fs: seq<Function>, kd: KernelDimensions)
    ensures ExtractAll(d, fs, kd).bitwidth ==
      (match LastWidth(d, fs) case Some(w) => w case None => kd.bitwidth)
  {
    if |fs| > 0 {
      var next := if IsMarker(fs[0]) then ExtractAxiom(d, fs[0], kd) else kd;
      LastWidthWins(d, fs[1..], next);
      ExtractAxiomIsRecord(d, fs[0], kd);
    }
  }

  // Validation

  /** The process exit the source performs: a message on standard error and an exit status. */
  datatype Abort = Abort(message: string, status: int)

  const UnsupportedKernelDimension: Abort := Abort("Unsupported kernel dimension", 111)

  /** A slot holding a constant whose signed value is positive. */
  predicate Positive(o: Option<ConstantInt>)
  {
    o.Some? && SExtValue(o.value) > 0
  }

  /** The validation loop of extractOpenCLDimensions and extractCUDADimensions, from axis i on. */
  function CheckDimensions(kd: KernelDimensions, i: nat): (r: Result<KernelDimensions, Abort>)
    requires i <= 3
    decreases 3 - i
    ensures r.Success? <==> forall ax: Axis :: i <= ax ==> Positive(Slot(kd, Local, ax)) && Positive(Slot(kd, Group, ax))
    ensures r.Success? ==> r.value == kd
    ensures r.Failure? ==> r.error == UnsupportedKernelDimension
  {
    if i == 3 then Success(kd)
    else if !Positive(Slot(kd, Local, i)) then Failure(UnsupportedKernelDimension)
    else if !Positive(Slot(kd, Group, i)) then Failure(UnsupportedKernelDimension)
    else CheckDimensions(kd, i + 1)
  }

  /** On axis ax, the last markers of fs for both roles give positive values. */
  predicate PositiveAxis(d: Dialect, fs: seq<Function>, ax: Axis)
  {
    Positive(LastValue(d, fs, Local, ax)) && Positive(LastValue(d, fs, Group, ax))
  }

  /** The dimensions the markers of fs establish, validated. */
  function ExtractDimensions(d: Dialect, fs: seq<Function>): (r: Result<KernelDimensions, Abort>)
    ensures r.Success? <==> forall ax: Axis :: PositiveAxis(d, fs, ax)
    ensures r.Success? ==> forall role, ax: Axis :: Slot(r.value, role, ax) == LastValue(d, fs, role, ax)
    ensures r.Success? ==> LastWidth(d, fs).Some? && r.value.bitwidth == LastWidth(d, fs).value
    ensures r.Failure? ==> r.error == UnsupportedKernelDimension
  {
    var kd := ExtractAll(d, fs, Unset);
    AllSlotsAreLastValues(d, fs);
    assert forall ax: Axis :: PositiveAxis(d, fs, ax) <==> Positive(Slot(kd, Local, ax)) && Positive(Slot(kd, Group, ax));
    CheckDimensions(kd, 0)
  }

  lemma AllSlotsAreLastValues(d: Dialect, fs: seq<Function>)
    ensures forall role, ax: Axis :: Slot(ExtractAll(d, fs, Unset), role, ax) == LastValue(d, fs, role, ax)
    ensures LastWidth(d, fs).Some? ==> ExtractAll(d, fs, Unset).bitwidth == LastWidth(d, fs).value
    ensures LastValue(d, fs, Local, 0).Some? ==> LastWidth(d, fs).Some?
  {
    forall role, ax: Axis
      ensures Slot(ExtractAll(d, fs, Unset), role, ax) == LastValue(d, fs, role, ax)
    {
      ExtractAllLastWins(d, fs, Unset, role, ax);
    }
    ExtractAllLastWins(d, fs, Unset, Local, 0);
    if LastValue(d, fs, Local, 0).Some? {
      SomeValueHasWidth(d, fs, Local, 0);
    }
  }

  lemma {:induction false} SomeValueHasWidth(d: Dialect, fs: seq<Function>, role: Role, ax: Axis)
    requires LastValue(d, fs, role, ax).Some?
    ensures LastWidth(d, fs).Some?
  {
    if LastValue(d, fs[1..], role, ax).Some? {
      SomeValueHasWidth(d, fs[1..], role, ax);
    }
  }

  /** extractOpenCLDimensions, with the process exit as a Failure result. */
  function ExtractOpenCLDimensions(m: Module): (r: Result<KernelDimensions, Abort>)
    ensures r.Success? <==> forall ax: Axis :: PositiveAxis(OpenCLDialect, m.functions, ax)
    ensures r.Success? ==> forall role, ax: Axis :: Slot(r.value, role, ax) == LastValue(OpenCLDialect, m.functions, role, ax)
    ensures r.Success? ==> LastWidth(OpenCLDialect, m.functions).Some? && r.value.bitwidth == LastWidth(OpenCLDialect, m.functions).value
    ensures r.Failure? ==> r.error == UnsupportedKernelDimension
  {
    ExtractDimensions(OpenCLDialect, m.functions)
  }

  /** extractCUDADimensions, with the process exit as a Failure result. */
  function ExtractCUDADimensions(m: Module): (r: Result<KernelDimensions, Abort>)
    ensures r.Success? <==> forall ax: Axis :: PositiveAxis(CUDADialect, m.functions, ax)
    ensures r.Success? ==> forall role, ax: Axis :: Slot(r.value, role, ax) == LastValue(CUDADialect, m.functions, role, ax)
    ensures r.Success? ==> LastWidth(CUDADialect, m.functions).Some? && r.value.bitwidth == LastWidth(CUDADialect, m.functions).value
    ensures r.Failure? ==> r.error == UnsupportedKernelDimension
  {
    ExtractDimensions(CUDADialect, m.functions)
  }
}

=== FILE: purity.dfy ===
/**
  The memory-purity check of the careful hoister (doesNotAccessMemory): a
  function is pure when it has at least one block, none of its instructions
  loads or stores, and every call other than one of the dbg_value intrinsic
  goes to a named function that is itself pure.

  The check recurses through the call graph without a cycle guard. The scan
  of a function stops at its first load, store, indirect call or impure
  callee, so it comes back even on a cyclic call graph when every cycle it
  reaches is cut by such an instruction earlier in the scan; it runs forever
  only when a recursive call is reached first. The model asks for more: a
  rank map witnessing that the whole module has no call cycle, every direct
  call going to a function of strictly smaller rank. The result does not
  depend on the rank chosen (RankIrrelevant).
*/
module Purity {
  import opened Wrappers
  import opened IR

  /** The name under which LLVM declares the dbg_value intrinsic. */
  const DbgValueName: string := "llvm.dbg.value"

  /** A call of the dbg_value intrinsic, the only call the check ignores. */
  predicate IsDbgValueCall(i: Inst)
  {
    i.opcode == Call(Direct(DbgValueName))
  }

  function RankOf(rank: map<string, nat>, name: string): nat
  {
    if name in rank then rank[name] else 0
  }

  /** A direct call made from the function named caller goes to a lower rank. */
  predicate CallsDownward(rank: map<string, nat>, caller: string, i: Inst)
  {
    i.opcode.Call? && i.opcode.callee.Direct? ==> RankOf(rank, i.opcode.callee.name) < RankOf(rank, caller)
  }

  /** rank witnesses that the module's call graph has no cycle. */
  predicate Acyclic(m: Module, rank: map<string, nat>)
  {
    forall k, j :: 0 <= k < |m.functions| && 0 <= j < |Instructions(m.functions[k])| ==>
      CallsDownward(rank, m.functions[k].name, Instructions(m.functions[k])[j])
  }

  function CalleeRank(rank: map<string, nat>, callee: Callee): nat
  {
    match callee
    case Indirect(_) => 0
    case Direct(name) => RankOf(rank, name)
  }

  /**
    doesNotAccessMemory. Indirect calls (a null function), callees the module
    does not define, and declarations (functions without blocks) are impure.
  */
  function DoesNotAccessMemory(m: Module, rank: map<string, nat>, callee: Callee): (r: bool)
    requires Acyclic(m, rank)
    decreases CalleeRank(rank, callee), 1, 0
    ensures r ==> callee.Direct?
    ensures r ==> FindFunction(m.functions, callee.name).Some?
    ensures r ==> !IsDeclaration(m.functions[FindFunction(m.functions, callee.name).value])
  {
    match callee
    case Indirect(_) => false
    case Direct(name) =>
      match FindFunction(m.functions, name)
      case None => false
      case Some(k) => !IsDeclaration(m.functions[k]) && PureFrom(m, rank, k, 0)
  }

  /**
    The scan over the instructions of the k-th function from position j on,
    returning false at the first load, store, indirect call or call of an
    impure function, exactly as the nested loops of the source do.
  */
  function PureFrom(m: Module, rank: map<string, nat>, k: nat, j: nat): (r: bool)
    requires Acyclic(m, rank)
    requires k < |m.functions| && j <= |Instructions(m.functions[k])|
    decreases RankOf(rank, m.functions[k].name), 0, |Instructions(m.functions[k])| - j
    ensures r ==> forall j' :: j <= j' < |Instructions(m.functions[k])| ==>
      var i := Instructions(m.functions[k])[j'];
      !i.opcode.Load? && !i.opcode.Store? && (i.opcode.Call? ==> i.opcode.callee.Direct?)
  {
    var insts := Instructions(m.functions[k]);
    if j == |insts| then true
    else
      var i := insts[j];
      assert CallsDownward(rank, m.functions[k].name, i);
      if i.opcode.Load? || i.opcode.Store? then false
      else if i.opcode.Call? then
        if IsDbgValueCall(i) then PureFrom(m, rank, k, j + 1)
        else if i.opcode.callee.Indirect? then false
        else DoesNotAccessMemory(m, rank, i.opcode.callee) && PureFrom(m, rank, k, j + 1)
      else PureFrom(m, rank, k, j + 1)
  }

  /** What a single instruction must satisfy for its function to be pure. */
  predicate InstIsPure(m: Module, rank: map<string, nat>, i: Inst)
    requires Acyclic(m, rank)
  {
    && !i.opcode.Load?
    && !i.opcode.Store?
    && (i.opcode.Call? && !IsDbgValueCall(i) ==>
          i.opcode.callee.Direct? && DoesNotAccessMemory(m, rank, i.opcode.callee))
  }

  lemma {:induction false} PureFromIff(m: Module, rank: map<string, nat>, k: nat, j: nat)
    requires Acyclic(m, rank)
    requires k < |m.functions| && j <= |Instructions(m.functions[k])|
    decreases |Instructions(m.functions[k])| - j
    ensures PureFrom(m, rank, k, j) <==>
      forall j' :: j <= j' < |Instructions(m.functions[k])| ==> InstIsPure(m, rank, Instructions(m.functions[k])[j'])
  {
    if j < |Instructions(m.functions[k])| {
      PureFromIff(m, rank, k, j + 1);
    }
  }

  /**
    On an acyclic call graph, a named function is pure iff it is defined with
    at least one block, and every one of its instructions is neither a load nor a store,
    and every call in it that is not of dbg_value is a direct call of a pure
    function.
  */
  lemma DoesNotAccessMemoryIff(m: Module, rank: map<string, nat>, name: string)
    requires Acyclic(m, rank)
    ensures DoesNotAccessMemory(m, rank, Direct(name)) <==>
      (match FindFunction(m.functions, name)
       case None => false
       case Some(k) =>
         && !IsDeclaration(m.functions[k])
         && forall j :: 0 <= j < |Instructions(m.functions[k])| ==> InstIsPure(m, rank, Instructions(m.functions[k])[j]))
  {
    match FindFunction(m.functions, name)
    case None =>
    case Some(k) => PureFromIff(m, rank, k, 0);
  }

  /** A function without blocks is a declaration, and a call of it is never pure. */
  lemma DeclarationIsImpure(m: Module, rank: map<string, nat>, k: nat)
    requires Acyclic(m, rank)
    requires k < |m.functions| && FindFunction(m.functions, m.functions[k].name) == Some(k)
    requires m.functions[k].body == Some([])
    ensures !DoesNotAccessMemory(m, rank, Direct(m.functions[k].name))
  {
  }

  /** A load or store anywhere in a function's body makes it impure. */
  lemma MemoryAccessIsImpure(m: Module, rank: map<string, nat>, k: nat, j: nat)
    requires Acyclic(m, rank)
    requires k < |m.functions| && FindFunction(m.functions, m.functions[k].name) == Some(k)
    requires j < |Instructions(m.functions[k])|
    requires Instructions(m.functions[k])[j].opcode.Load? || Instructions(m.functions[k])[j].opcode.Store?
    ensures !DoesNotAccessMemory(m, rank, Direct(m.functions[k].name))
  {
    DoesNotAccessMemoryIff(m, rank, m.functions[k].name);
    assert !InstIsPure(m, rank, Instructions(m.functions[k])[j]);
  }

  /** A call of an impure function (other than dbg_value) makes the caller impure: impurity is transitive. */
  lemma ImpureCalleeIsImpure(m: Module, rank: map<string, nat>, k: nat, j: nat)
    requires Acyclic(m, rank)
    requires k < |m.functions| && FindFunction(m.functions, m.functions[k].name) == Some(k)
    requires j < |Instructions(m.functions[k])|
    requires Instructions(m.functions[k])[j].opcode.Call?
    requires !IsDbgValueCall(Instructions(m.functions[k])[j])
    requires !DoesNotAccessMemory(m, rank, Instructions(m.functions[k])[j].opcode.callee)
    ensures !DoesNotAccessMemory(m, rank, Direct(m.functions[k].name))
  {
    DoesNotAccessMemoryIff(m, rank, m.functions[k].name);
    assert !InstIsPure(m, rank, Instructions(m.functions[k])[j]);
  }

  /** The rank is only a termination witness: any two witnesses give the same answer. */
  lemma {:induction false} RankIrrelevant(m: Module, r1: map<string, nat>, r2: map<string, nat>, callee: Callee)
    requires Acyclic(m, r1) && Acyclic(m, r2)
    decreases CalleeRank(r1, callee), 1, 0
    ensures DoesNotAccessMemory(m, r1, callee) == DoesNotAccessMemory(m, r2, callee)
  {
    match callee
    case Indirect(_) =>
    case Direct(name) =>
      match FindFunction(m.functions, name)
      case None =>
      case Some(k) => RankIrrelevantFrom(m, r1, r2, k, 0);
  }

  lemma {:induction false} RankIrrelevantFrom(m: Module, r1: map<string, nat>, r2: map<string, nat>, k: nat, j: nat)
    requires Acyclic(m, r1) && Acyclic(m, r2)
    requires k < |m.functions| && j <= |Instructions(m.functions[k])|
    decreases RankOf(r1, m.functions[k].name), 0, |Instructions(m.functions[k])| - j
    ensures PureFrom(m, r1, k, j) == PureFrom(m, r2, k, j)
  {
    var insts := Instructions(m.functions[k]);
    if j < |insts| {
      var i := insts[j];
      assert CallsDownward(r1, m.functions[k].name, i);
      RankIrrelevantFrom(m, r1, r2, k, j + 1);
      if i.opcode.Call? && !IsDbgValueCall(i) && i.opcode.callee.Direct? {
        RankIrrelevant(m, r1, r2, i.opcode.callee);
      }
    }
  }
}

=== FILE: scenarios.dfy ===
/** What the model computes on concrete inputs: the end-to-end behaviour both components promise. */
module Scenarios {
  import opened Wrappers
  import opened IR
  import opened Purity
  import opened CarefulHoister
  import opened LanguageData

  const I32Width: nat := 32

  function I32(v: nat): (r: ConstantInt)
    requires v < 0x1_0000_0000
    ensures r.width == 32 && ZExtValue(r) == v
  {
    Pow2Of32();
    IntConst(32, v)
  }

  /** An OpenCL marker: get_local_size(1) == 256, then ret. */
  function LocalSizeMarker(): Function
  {
    Function("__axiom_local_1", Some([[
      Inst(0, Call(Direct("get_local_size")), [Const(I32(1))]),
      Inst(1, ICmp(EQ), [InstRef(0), Const(I32(256))]),
      Inst(2, Ret, [])
    ]]))
  }

  /** The marker records local[1] = 256 with bit width 32 and touches no other slot. */
  lemma LocalSizeMarkerRecordsAxis1()
    ensures ExtractOpenCLAxiom(LocalSizeMarker(), Unset).local == [None, Some(I32(256)), None]
    ensures ExtractOpenCLAxiom(LocalSizeMarker(), Unset).group == [None, None, None]
    ensures ExtractOpenCLAxiom(LocalSizeMarker(), Unset).bitwidth == 32
  {
    assert IsOpenCLAxiom(LocalSizeMarker(), Axiom(Local, 1, I32(256)));
  }

  /** The same marker with an unrelated add between the call and the comparison. */
  function LocalSizeMarkerWithGap(): Function
  {
    Function("__axiom_local_1", Some([[
      Inst(0, Call(Direct("get_local_size")), [Const(I32(1))]),
      Inst(3, Binary(Add), [InstRef(0), Const(I32(1))]),
      Inst(1, ICmp(EQ), [InstRef(0), Const(I32(256))]),
      Inst(2, Ret, [])
    ]]))
  }

  /** The broken marker records nothing, and a module whose only marker it is fails validation. */
  lemma MarkerWithGapRecordsNothing()
    ensures ExtractOpenCLAxiom(LocalSizeMarkerWithGap(), Unset) == Unset
    ensures ExtractOpenCLDimensions(Module([LocalSizeMarkerWithGap()], map[])) == Failure(Abort("Unsupported kernel dimension", 111))
  {
    var m := Module([LocalSizeMarkerWithGap()], map[]);
    assert MatchOpenCLAxiom(LocalSizeMarkerWithGap()) == None;
    assert LastValue(OpenCLDialect, m.functions[1..], Local, 0) == None;
    assert LastValue(OpenCLDialect, m.functions, Local, 0) == None;
    assert !PositiveAxis(OpenCLDialect, m.functions, 0);
  }

  /** A CUDA marker: gridDim.z == 64. */
  function GridDimBlock(): Block
  {
    [
      Inst(0, Cast(AddrSpaceCast), [GlobalVar("gridDim", StructTy(VectorStructName))]),
      Inst(1, GetElementPtr, [InstRef(0), Const(I32(0)), Const(I32(2))]),
      Inst(2, Load, [InstRef(1)]),
      Inst(3, ICmp(EQ), [InstRef(2), Const(I32(64))]),
      Inst(4, Ret, [])
    ]
  }

  function GridDimMarker(): Function { Function("__axiom_grid_2", Some([GridDimBlock()])) }

  /** The marker matches the CUDA pattern for gridDim.z == 64. */
  lemma GridDimMarkerMatches()
    ensures MatchCUDAAxiom(GridDimMarker()) == Some(Axiom(Group, 2, I32(64)))
  {
    var insts := GridDimBlock();
    assert PointeeOf(insts[0].operands[0]) == Some(StructTy(VectorStructName));
    assert NameOf(insts[0].operands[0]) == BuiltinName(Group);
    assert IsCUDAAxiom(GridDimMarker(), Axiom(Group, 2, I32(64)));
  }

  /** It records group[2] = 64 with bit width 32 and touches no other slot. */
  lemma GridDimMarkerRecordsGroup2()
    ensures ExtractCUDAAxiom(GridDimMarker(), Unset).group == [None, None, Some(I32(64))]
    ensures ExtractCUDAAxiom(GridDimMarker(), Unset).local == [None, None, None]
    ensures ExtractCUDAAxiom(GridDimMarker(), Unset).bitwidth == 32
  {
    GridDimMarkerMatches();
  }

  // A one-block loop (block 1) with preheader block 0:
  //   block 0: br
  //   block 1: %5 = udiv %a, %b ; %6 = load %p ; br
  function Preheader(): Block { [Inst(9, Br, [])] }

  function LoopBlock(): Block
  {
    [
      Inst(5, Binary(UDiv), [Argument("a", IntegerTy(32)), Argument("b", IntegerTy(32))]),
      Inst(6, Load, [Argument("p", PointerTy(IntegerTy(32)))]),
      Inst(7, Br, [])
    ]
  }

  function SimpleLoop(): Loop { Loop({1}, [], Some(0)) }

  function Hoisted1(): Body { [[LoopBlock()[0], Preheader()[0]], [LoopBlock()[1], LoopBlock()[2]]] }

  lemma HoistDivision()
    ensures Hoist([Preheader(), LoopBlock()], 0, 1, 0) == Hoisted1()
  {
    var b1 := Hoist([Preheader(), LoopBlock()], 0, 1, 0);
    assert b1[0] == Hoisted1()[0];
    assert b1[1] == Hoisted1()[1];
  }

  lemma RestOfBlockStays()
    ensures HoistBlock(Module([], map[]), map[], SimpleLoop(), 0, Hoisted1(), 1, 0) == Hoisted(Hoisted1(), [])
  {
    var m := Module([], map[]);
    var rank: map<string, nat> := map[];
    assert !CanHoistInst(m, rank, LoopBlock()[1]);
    assert !CanHoistInst(m, rank, LoopBlock()[2]);
    assert HoistBlock(m, rank, SimpleLoop(), 0, Hoisted1(), 1, 2) == Hoisted(Hoisted1(), []);
    assert HoistBlock(m, rank, SimpleLoop(), 0, Hoisted1(), 1, 1) == Hoisted(Hoisted1(), []);
  }

  lemma DivisionQualifies()
    ensures Qualifies(Module([], map[]), map[], SimpleLoop(), [Preheader(), LoopBlock()], LoopBlock()[0])
  {
    assert IsLoopInvariantInst(SimpleLoop(), [Preheader(), LoopBlock()], LoopBlock()[0]);
  }

  /** In the loop's only block, the division is moved and nothing else is. */
  lemma LoopBlockHoistsDivision()
    ensures HoistBlock(Module([], map[]), map[], SimpleLoop(), 0, [Preheader(), LoopBlock()], 1, 0)
      == Hoisted(Hoisted1(), [LoopBlock()[0]])
  {
    HoistDivision();
    RestOfBlockStays();
    DivisionQualifies();
  }

  /** The walk from the header, which has no dominator children, moves the division. */
  lemma RegionHoistsDivision()
    ensures HoistRegion(Module([], map[]), map[], SimpleLoop(), 0, Node(1, []), [Preheader(), LoopBlock()])
      == Hoisted(Hoisted1(), [LoopBlock()[0]])
  {
    LoopBlockHoistsDivision();
    assert HoistChildren(Module([], map[]), map[], SimpleLoop(), 0, Node(1, []), 0, Hoisted1()) == Hoisted(Hoisted1(), []);
  }

  /** The division moves to just before the preheader's branch; the load and the branch stay in the loop. */
  lemma DivisionIsHoistedLoadIsNot()
    ensures RunOnLoop(Module([], map[]), map[], SimpleLoop(), Node(1, []), [Preheader(), LoopBlock()]) == LoopRun(Hoisted1(), true)
  {
    RegionHoistsDivision();
  }

  // A loop {1, 2, 3} with preheader 0 whose block 2 forms a subloop; block 3,
  // where the subloop exits to, is dominated by block 2:
  //   block 0: br          block 1: br
  //   block 2: br          block 3: %5 = udiv %a, %b ; br
  function NestedBody(): Body { [Preheader(), [Inst(10, Br, [])], [Inst(11, Br, [])], [LoopBlock()[0], Inst(12, Br, [])]] }

  function OuterLoop(): Loop { Loop({1, 2, 3}, [Loop({2}, [], Some(1))], Some(0)) }

  function NestedTree(): DomTree { Node(1, [Node(2, [Node(3, [])])]) }

  /** The header holds only its branch, which stays. */
  lemma HeaderKeepsBranch()
    ensures HoistBlock(Module([], map[]), map[], OuterLoop(), 0, NestedBody(), 1, 0) == Hoisted(NestedBody(), [])
  {
    assert !CanHoistInst(Module([], map[]), map[], NestedBody()[1][0]);
  }

  /** Block 3 is not among the blocks the walk from the header scans. */
  lemma BlockBelowSubloopIsNotScanned()
    ensures Region(OuterLoop(), NestedTree()) == {1}
  {
    assert InSubLoop(OuterLoop(), 2);
    assert ChildRegions(OuterLoop(), NestedTree(), 1) == {};
  }

  /**
    The walk stops at the subloop's block and never reaches block 3, so the
    division there stays although it qualifies.
  */
  lemma BlockBelowSubloopIsSkipped()
    ensures Qualifies(Module([], map[]), map[], OuterLoop(), NestedBody(), NestedBody()[3][0])
    ensures RunOnLoop(Module([], map[]), map[], OuterLoop(), NestedTree(), NestedBody()) == LoopRun(NestedBody(), false)
  {
    NestedDivisionQualifies();
    NestedRunLeavesBody();
  }

  lemma NestedRunLeavesBody()
    ensures RunOnLoop(Module([], map[]), map[], OuterLoop(), NestedTree(), NestedBody()) == LoopRun(NestedBody(), false)
  {
    NestedHeaderIsQuiet();
    BlockBelowSubloopIsNotScanned();
    RunOnLoopQuiet(Module([], map[]), map[], OuterLoop(), NestedTree(), NestedBody());
  }

  lemma NestedHeaderIsQuiet()
    ensures QuietFrom(Module([], map[]), map[], OuterLoop(), NestedBody(), 1, 0)
  {
    assert !CanHoistInst(Module([], map[]), map[], NestedBody()[1][0]);
  }

  lemma NestedDivisionQualifies()
    ensures Qualifies(Module([], map[]), map[], OuterLoop(), NestedBody(), NestedBody()[3][0])
  {
    assert IsLoopInvariantInst(OuterLoop(), NestedBody(), NestedBody()[3][0]);
  }

  // The one-block loop again, now with a chain: the second division uses the first.
  //   block 1: %5 = udiv %a, %b ; %6 = udiv %5, %c ; br
  function ChainBlock(): Block
  {
    [LoopBlock()[0], Inst(6, Binary(UDiv), [InstRef(5), Argument("c", IntegerTy(32))]), Inst(7, Br, [])]
  }

  function ChainStep1(): Body { [[ChainBlock()[0], Preheader()[0]], [ChainBlock()[1], ChainBlock()[2]]] }

  function ChainStep2(): Body { [[ChainBlock()[0], ChainBlock()[1], Preheader()[0]], [ChainBlock()[2]]] }

  /** While %5 is in the loop, %6 uses a value the loop defines and does not qualify. */
  lemma UseWaitsForDefinition()
    ensures !Qualifies(Module([], map[]), map[], SimpleLoop(), [Preheader(), ChainBlock()], ChainBlock()[1])
  {
    assert [Preheader(), ChainBlock()][1][0].id == 5;
    assert DefinedInLoop(SimpleLoop(), [Preheader(), ChainBlock()], 5);
  }

  /** Once %5 has moved out, %6 qualifies. */
  lemma UseQualifiesOnceDefinitionMoved()
    ensures Qualifies(Module([], map[]), map[], SimpleLoop(), ChainStep1(), ChainBlock()[1])
  {
    forall b, j | b in SimpleLoop().blocks && b < |ChainStep1()| && 0 <= j < |ChainStep1()[b]|
      ensures ChainStep1()[b][j].id != 5
    {
      assert b == 1;
    }
    assert !DefinedInLoop(SimpleLoop(), ChainStep1(), 5);
    assert IsLoopInvariantInst(SimpleLoop(), ChainStep1(), ChainBlock()[1]);
  }

  lemma ChainFirstHoist()
    ensures Hoist([Preheader(), ChainBlock()], 0, 1, 0) == ChainStep1()
  {
    var b1 := Hoist([Preheader(), ChainBlock()], 0, 1, 0);
    assert b1[0] == ChainStep1()[0];
    assert b1[1] == ChainStep1()[1];
  }

  lemma ChainSecondHoist()
    ensures Hoist(ChainStep1(), 0, 1, 0) == ChainStep2()
  {
    var b2 := Hoist(ChainStep1(), 0, 1, 0);
    assert b2[0] == ChainStep2()[0];
    assert b2[1] == ChainStep2()[1];
  }

  lemma ChainBranchStays()
    ensures HoistBlock(Module([], map[]), map[], SimpleLoop(), 0, ChainStep2(), 1, 0) == Hoisted(ChainStep2(), [])
  {
    assert !CanHoistInst(Module([], map[]), map[], ChainBlock()[2]);
  }

  lemma ChainUseMoves()
    ensures HoistBlock(Module([], map[]), map[], SimpleLoop(), 0, ChainStep1(), 1, 0) == Hoisted(ChainStep2(), [ChainBlock()[1]])
  {
    ChainSecondHoist();
    UseQualifiesOnceDefinitionMoved();
    ChainBranchStays();
  }

  lemma ChainDefinitionQualifies()
    ensures Qualifies(Module([], map[]), map[], SimpleLoop(), [Preheader(), ChainBlock()], ChainBlock()[0])
  {
    assert IsLoopInvariantInst(SimpleLoop(), [Preheader(), ChainBlock()], ChainBlock()[0]);
  }

  /**
    The scan stays at the same position after a move, so the use that
    qualifies only once its definition has left is moved in the same scan,
    right after it.
  */
  lemma ChainBlockHoistsBoth()
    ensures HoistBlock(Module([], map[]), map[], SimpleLoop(), 0, [Preheader(), ChainBlock()], 1, 0)
      == Hoisted(ChainStep2(), [ChainBlock()[0], ChainBlock()[1]])
  {
    ChainFirstHoist();
    ChainDefinitionQualifies();
    ChainUseMoves();
  }

  lemma ChainRegion()
    ensures HoistRegion(Module([], map[]), map[], SimpleLoop(), 0, Node(1, []), [Preheader(), ChainBlock()])
      == Hoisted(ChainStep2(), [ChainBlock()[0], ChainBlock()[1]])
  {
    ChainBlockHoistsBoth();
    assert HoistChildren(Module([], map[]), map[], SimpleLoop(), 0, Node(1, []), 0, ChainStep2()) == Hoisted(ChainStep2(), []);
  }

  /** One run of the pass moves the whole chain, definition first, in front of the preheader's branch. */
  lemma ChainIsHoistedInOneRun()
    ensures RunOnLoop(Module([], map[]), map[], SimpleLoop(), Node(1, []), [Preheader(), ChainBlock()]) == LoopRun(ChainStep2(), true)
  {
    ChainRegion();
  }
}

=== FILE: walk.dfy ===
/**
  The order in which HoistRegion's depth-first walk meets instructions, and
  what follows from it: the moved instructions reach the preheader in that
  order, and when every definition comes before its uses in that order, one
  walk leaves nothing behind that could still be hoisted.
*/
module HoistWalk {
  import opened Wrappers
  import opened IR
  import opened Purity
  import opened CarefulHoister

  /** The blocks the walk from n scans, in the order it scans them. */
  ghost function ScanOrder(l: Loop, n: DomTree): seq<nat>
    decreases n, |n.children| + 1
  {
    if n.block in l.blocks && !InSubLoop(l, n.block) then [n.block] + ChildOrder(l, n, 0) else []
  }

  /** The blocks scanned under the children of n from the c-th on, in order. */
  ghost function ChildOrder(l: Loop, n: DomTree, c: nat): seq<nat>
    decreases n, |n.children| - c
  {
    if c < |n.children| then ScanOrder(l, n.children[c]) + ChildOrder(l, n, c + 1) else []
  }

  /** The scan order lists exactly the scanned blocks. */
  lemma {:induction false} ScanOrderIsRegion(l: Loop, n: DomTree)
    decreases n, |n.children| + 1
    ensures forall x :: x in ScanOrder(l, n) <==> x in Region(l, n)
  {
    if n.block in l.blocks && !InSubLoop(l, n.block) {
      ChildOrderIsChildRegions(l, n, 0);
    }
  }

  lemma {:induction false} ChildOrderIsChildRegions(l: Loop, n: DomTree, c: nat)
    decreases n, |n.children| - c
    ensures forall x :: x in ChildOrder(l, n, c) <==> x in ChildRegions(l, n, c)
  {
    if c < |n.children| {
      ScanOrderIsRegion(l, n.children[c]);
      ChildOrderIsChildRegions(l, n, c + 1);
    }
  }

  /** Every listed block is a block of the loop outside its subloops. */
  ghost predicate LoopOrder(l: Loop, order: seq<nat>)
  {
    forall j :: 0 <= j < |order| ==> order[j] in l.blocks && !InSubLoop(l, order[j])
  }

  lemma {:induction false} ScanOrderInLoop(l: Loop, n: DomTree)
    decreases n, |n.children| + 1
    ensures LoopOrder(l, ScanOrder(l, n))
  {
    if n.block in l.blocks && !InSubLoop(l, n.block) {
      ChildOrderInLoop(l, n, 0);
    }
  }

  lemma {:induction false} ChildOrderInLoop(l: Loop, n: DomTree, c: nat)
    decreases n, |n.children| - c
    ensures LoopOrder(l, ChildOrder(l, n, c))
  {
    if c < |n.children| {
      ScanOrderInLoop(l, n.children[c]);
      ChildOrderInLoop(l, n, c + 1);
    }
  }

  /** The instructions of the listed blocks, block after block. */
  ghost function Gather(body: Body, order: seq<nat>): seq<Inst>
    requires forall j :: 0 <= j < |order| ==> order[j] < |body|
    decreases |order|
  {
    if |order| == 0 then [] else body[order[0]] + Gather(body, order[1..])
  }

  lemma {:induction false} GatherAppend(body: Body, o1: seq<nat>, o2: seq<nat>)
    requires forall j :: 0 <= j < |o1| ==> o1[j] < |body|
    requires forall j :: 0 <= j < |o2| ==> o2[j] < |body|
    decreases |o1|
    ensures Gather(body, o1 + o2) == Gather(body, o1) + Gather(body, o2)
  {
    if |o1| > 0 {
      assert (o1 + o2)[0] == o1[0] && (o1 + o2)[1..] == o1[1..] + o2;
      GatherAppend(body, o1[1..], o2);
    } else {
      assert o1 + o2 == o2;
    }
  }

  /** Gathering only reads the listed blocks. */
  lemma {:induction false} GatherFrame(b1: Body, b2: Body, order: seq<nat>)
    requires forall j :: 0 <= j < |order| ==> order[j] < |b1| && order[j] < |b2| && b1[order[j]] == b2[order[j]]
    decreases |order|
    ensures Gather(b1, order) == Gather(b2, order)
  {
    if |order| > 0 {
      GatherFrame(b1, b2, order[1..]);
    }
  }

  /** Every instruction of a listed block is gathered. */
  lemma {:induction false} GatherHas(body: Body, order: seq<nat>, x: nat, v: Inst)
    requires forall j :: 0 <= j < |order| ==> order[j] < |body|
    requires x in order && x < |body| && v in body[x]
    decreases |order|
    ensures v in Gather(body, order)
  {
    if order[0] != x {
      assert x in order[1..];
      GatherHas(body, order[1..], x, v);
    }
  }

  /** If each listed block only lost instructions, keeping the order of the rest, so did the gathered sequence. */
  lemma {:induction false} GatherShrinks(before: Body, after: Body, order: seq<nat>)
    requires forall j :: 0 <= j < |order| ==> order[j] < |before| && order[j] < |after| && IsSubsequence(after[order[j]], before[order[j]])
    decreases |order|
    ensures IsSubsequence(Gather(after, order), Gather(before, order))
  {
    if |order| > 0 {
      GatherShrinks(before, after, order[1..]);
      SubsequenceConcat(after[order[0]], before[order[0]], Gather(after, order[1..]), Gather(before, order[1..]));
    }
  }

  /** The instructions the walk from n meets, in the order it meets them, as they stand in body. */
  ghost function ScanSeq(l: Loop, n: DomTree, body: Body): seq<Inst>
    requires forall x :: x in l.blocks ==> x < |body|
  {
    ScanOrderInLoop(l, n);
    Gather(body, ScanOrder(l, n))
  }

  /** The same for the children of n from the c-th on. */
  ghost function ChildScanSeq(l: Loop, n: DomTree, c: nat, body: Body): seq<Inst>
    requires forall x :: x in l.blocks ==> x < |body|
  {
    ChildOrderInLoop(l, n, c);
    Gather(body, ChildOrder(l, n, c))
  }

  /**
    The scan of one block moves instructions in the order they stand in the
    block: the moved list is a subsequence of the block from position k on.
  */
  lemma {:induction false} HoistBlockMovesInOrder(m: Module, rank: map<string, nat>, l: Loop, ph: nat, body: Body, b: nat, k: nat)
    requires WellFormed(m, rank, l, ph, body)
    requires b in l.blocks && !InSubLoop(l, b) && k <= |body[b]|
    decreases |body[b]| - k, 1
    ensures IsSubsequence(HoistBlock(m, rank, l, ph, body, b, k).moved, body[b][k..])
  {
    if k < |body[b]| {
      if Qualifies(m, rank, l, body, body[b][k]) {
        HoistedMovesInOrder(m, rank, l, ph, body, b, k);
      } else {
        SkippedMovesInOrder(m, rank, l, ph, body, b, k);
      }
    } else {
      assert HoistBlock(m, rank, l, ph, body, b, k).moved == [];
    }
  }

  /** The case of HoistBlockMovesInOrder where the k-th instruction stays. */
  lemma {:induction false} SkippedMovesInOrder(m: Module, rank: map<string, nat>, l: Loop, ph: nat, body: Body, b: nat, k: nat)
    requires WellFormed(m, rank, l, ph, body)
    requires b in l.blocks && !InSubLoop(l, b) && k < |body[b]|
    requires !Qualifies(m, rank, l, body, body[b][k])
    decreases |body[b]| - k, 0
    ensures IsSubsequence(HoistBlock(m, rank, l, ph, body, b, k).moved, body[b][k..])
  {
    var rest := HoistBlock(m, rank, l, ph, body, b, k + 1);
    assert HoistBlock(m, rank, l, ph, body, b, k) == rest;
    HoistBlockMovesInOrder(m, rank, l, ph, body, b, k + 1);
    assert body[b][k..][1..] == body[b][k + 1..];
    SubsequenceExtend(rest.moved, body[b][k..]);
  }

  /** The case of HoistBlockMovesInOrder where the k-th instruction qualifies and is moved first. */
  lemma {:induction false} HoistedMovesInOrder(m: Module, rank: map<string, nat>, l: Loop, ph: nat, body: Body, b: nat, k: nat)
    requires WellFormed(m, rank, l, ph, body)
    requires b in l.blocks && !InSubLoop(l, b) && k < |body[b]|
    requires Qualifies(m, rank, l, body, body[b][k])
    decreases |body[b]| - k, 0
    ensures IsSubsequence(HoistBlock(m, rank, l, ph, body, b, k).moved, body[b][k..])
  {
    var next := Hoist(body, ph, b, k);
    HoistShrinksLoop(m, rank, l, ph, body, b, k);
    var rest := HoistBlock(m, rank, l, ph, next, b, k);
    assert HoistBlock(m, rank, l, ph, body, b, k).moved == [body[b][k]] + rest.moved;
    HoistBlockMovesInOrder(m, rank, l, ph, next, b, k);
    assert next[b][k..] == body[b][k..][1..];
    SubsequenceCons(body[b][k], rest.moved, body[b][k..]);
  }

  /** The walk from n moves instructions in the order it meets them. */
  lemma {:induction false} HoistRegionMovesInOrder(m: Module, rank: map<string, nat>, l: Loop, ph: nat, n: DomTree, body: Body)
    requires WellFormed(m, rank, l, ph, body)
    decreases n, |n.children| + 2
    ensures IsSubsequence(HoistRegion(m, rank, l, ph, n, body).moved, ScanSeq(l, n, body))
  {
    if n.block in l.blocks && !InSubLoop(l, n.block) {
      var here := HoistBlock(m, rank, l, ph, body, n.block, 0);
      var below := HoistChildren(m, rank, l, ph, n, 0, here.body);
      assert HoistRegion(m, rank, l, ph, n, body).moved == here.moved + below.moved;
      var rest := ChildScanSeq(l, n, 0, body);
      assert IsSubsequence(here.moved, body[n.block]) by {
        HoistBlockMovesInOrder(m, rank, l, ph, body, n.block, 0);
        assert body[n.block][0..] == body[n.block];
      }
      assert IsSubsequence(below.moved, rest) by {
        HoistChildrenMovesInOrder(m, rank, l, ph, n, 0, here.body);
        HoistBlockKeepsOrder(m, rank, l, ph, body, n.block, 0);
        ChildOrderInLoop(l, n, 0);
        GatherShrinks(body, here.body, ChildOrder(l, n, 0));
        SubsequenceTrans(below.moved, ChildScanSeq(l, n, 0, here.body), rest);
      }
      assert ScanSeq(l, n, body) == body[n.block] + rest by {
        var order := ScanOrder(l, n);
        assert order[0] == n.block && order[1..] == ChildOrder(l, n, 0);
      }
      SubsequenceConcat(here.moved, body[n.block], below.moved, rest);
    }
  }

  lemma {:induction false} HoistChildrenMovesInOrder(m: Module, rank: map<string, nat>, l: Loop, ph: nat, n: DomTree, c: nat, body: Body)
    requires WellFormed(m, rank, l, ph, body)
    requires c <= |n.children|
    decreases n, |n.children| - c
    ensures IsSubsequence(HoistChildren(m, rank, l, ph, n, c, body).moved, ChildScanSeq(l, n, c, body))
  {
    if c < |n.children| {
      var first := HoistRegion(m, rank, l, ph, n.children[c], body);
      var rest := HoistChildren(m, rank, l, ph, n, c + 1, first.body);
      assert HoistChildren(m, rank, l, ph, n, c, body).moved == first.moved + rest.moved;
      var later := ChildScanSeq(l, n, c + 1, body);
      HoistRegionMovesInOrder(m, rank, l, ph, n.children[c], body);
      assert IsSubsequence(rest.moved, later) by {
        HoistChildrenMovesInOrder(m, rank, l, ph, n, c + 1, first.body);
        HoistRegionKeepsOrder(m, rank, l, ph, n.children[c], body);
        ChildOrderInLoop(l, n, c + 1);
        GatherShrinks(body, first.body, ChildOrder(l, n, c + 1));
        SubsequenceTrans(rest.moved, ChildScanSeq(l, n, c + 1, first.body), later);
      }
      assert ChildScanSeq(l, n, c, body) == ScanSeq(l, n.children[c], body) + later by {
        ScanOrderInLoop(l, n.children[c]);
        ChildOrderInLoop(l, n, c + 1);
        GatherAppend(body, ScanOrder(l, n.children[c]), ChildOrder(l, n, c + 1));
      }
      SubsequenceConcat(first.moved, ScanSeq(l, n.children[c], body), rest.moved, later);
    }
  }

  /**
    With a preheader, the instructions the pass inserts before the
    preheader's terminator stand in the order the walk from the header met
    them.
  */
  lemma RunOnLoopMovesInOrder(m: Module, rank: map<string, nat>, l: Loop, header: DomTree, body: Body)
    requires LoopWellFormed(m, rank, l, body)
    ensures l.preheader.Some? ==> (
      var ph := l.preheader.value;
      var after := RunOnLoop(m, rank, l, header, body).body;
      IsSubsequence(after[ph][|body[ph]| - 1 .. |after[ph]| - 1], ScanSeq(l, header, body)))
  {
    if l.preheader.Some? {
      var ph := l.preheader.value;
      var h := HoistRegion(m, rank, l, ph, header, body);
      assert RunOnLoop(m, rank, l, header, body).body == h.body;
      HoistRegionMovesInOrder(m, rank, l, ph, header, body);
      InsertedSlice(Init(body[ph]), h.moved, Last(body[ph]));
    }
  }

  /** No block is scanned twice, as in a dominator tree, where every block has one node. */
  ghost predicate NoRepeats(order: seq<nat>)
  {
    forall i, j :: 0 <= i < j < |order| ==> order[i] != order[j]
  }

  lemma NoRepeatsSplit(a: seq<nat>, b: seq<nat>)
    requires NoRepeats(a + b)
    ensures NoRepeats(a) && NoRepeats(b)
    ensures forall j :: 0 <= j < |b| ==> b[j] !in a
  {
    assert forall i :: 0 <= i < |a| ==> (a + b)[i] == a[i];
    assert forall j :: 0 <= j < |b| ==> (a + b)[|a| + j] == b[j];
  }

  /** Instructions are distinct objects: no id occurs at two places in the loop's blocks. */
  ghost predicate UniqueIds(l: Loop, body: Body)
  {
    forall x, j, y, k ::
      (x in l.blocks && y in l.blocks && x < |body| && y < |body| &&
       0 <= j < |body[x]| && 0 <= k < |body[y]| && body[x][j].id == body[y][k].id)
      ==> x == y && j == k
  }

  /** No instruction occurs twice in the loop's blocks. */
  ghost predicate NoDup(l: Loop, body: Body)
    requires forall x :: x in l.blocks ==> x < |body|
  {
    && (forall x, v :: x in l.blocks ==> multiset(body[x])[v] <= 1)
    && (forall x, y :: x in l.blocks && y in l.blocks && x != y ==> multiset(body[x]) !! multiset(body[y]))
  }

  lemma {:induction false} TwoPositions(s: seq<Inst>, v: Inst)
    requires multiset(s)[v] >= 2
    decreases |s|
    ensures exists i, j :: 0 <= i < j < |s| && s[i] == v && s[j] == v
  {
    assert s == [s[0]] + s[1..];
    assert multiset(s) == multiset{s[0]} + multiset(s[1..]);
    if s[0] == v {
      assert v in multiset(s[1..]);
      var j :| 0 <= j < |s[1..]| && s[1..][j] == v;
      assert s[0] == v && s[j + 1] == v;
    } else {
      TwoPositions(s[1..], v);
      var i, j :| 0 <= i < j < |s[1..]| && s[1..][i] == v && s[1..][j] == v;
      assert s[i + 1] == v && s[j + 1] == v;
    }
  }

  lemma UniqueIdsNoDup(l: Loop, body: Body)
    requires forall x :: x in l.blocks ==> x < |body|
    requires UniqueIds(l, body)
    ensures NoDup(l, body)
  {
    forall x, v | x in l.blocks
      ensures multiset(body[x])[v] <= 1
    {
      if multiset(body[x])[v] >= 2 {
        TwoPositions(body[x], v);
        assert false;
      }
    }
    forall x, y | x in l.blocks && y in l.blocks && x != y
      ensures multiset(body[x]) !! multiset(body[y])
    {
      forall v | v in multiset(body[x])
        ensures v !in multiset(body[y])
      {
        if v in multiset(body[y]) {
          assert false;
        }
      }
    }
  }

  /** The loop's blocks only lost instructions from before to after. */
  ghost predicate OnlyLoses(l: Loop, before: Body, after: Body)
  {
    |after| == |before| &&
    forall x :: x in l.blocks && x < |before| ==> multiset(after[x]) <= multiset(before[x])
  }

  /**
    Unless y is a phi node, every instruction of the loop's blocks outside its
    subloops that one of y's operands refers to (the called value of an
    indirect call included) is among earlier. A phi is never hoisted, and
    its incoming values may come from later blocks. A definition in a
    subloop's block never leaves it, so a use of it never qualifies.
  */
  ghost predicate DefinedAmong(l: Loop, body: Body, y: Inst, earlier: seq<Inst>)
    requires forall x :: x in l.blocks ==> x < |body|
  {
    y.opcode.Phi? ||
    forall k, x, z ::
      (0 <= k < |AllOperands(y)| && AllOperands(y)[k].InstRef? && x in l.blocks && !InSubLoop(l, x) &&
       z in body[x] && z.id == AllOperands(y)[k].id)
      ==> z in earlier
  }

  /**
    Definitions come before uses in s: what the loop defines for an
    instruction of s is among done or earlier in s.
  */
  ghost predicate DefsBefore(l: Loop, body: Body, done: seq<Inst>, s: seq<Inst>)
    requires forall x :: x in l.blocks ==> x < |body|
  {
    forall p :: 0 <= p < |s| ==> DefinedAmong(l, body, s[p], done + s[..p])
  }

  /** What the loop defines for an instruction of done is itself in done. */
  ghost predicate Closed(l: Loop, body: Body, done: seq<Inst>)
    requires forall x :: x in l.blocks ==> x < |body|
  {
    forall y :: y in done ==> DefinedAmong(l, body, y, done)
  }

  /** No instruction of done that is still in the loop's blocks could be hoisted now. */
  ghost predicate Settled(m: Module, rank: map<string, nat>, l: Loop, body: Body, done: seq<Inst>)
    requires Acyclic(m, rank)
    requires forall x :: x in l.blocks ==> x < |body|
  {
    forall x, z :: x in l.blocks && z in body[x] && z in done ==> !Qualifies(m, rank, l, body, z)
  }

  lemma DefinedAmongShrinks(l: Loop, before: Body, after: Body, y: Inst, earlier: seq<Inst>)
    requires forall x :: x in l.blocks ==> x < |before|
    requires OnlyLoses(l, before, after)
    requires DefinedAmong(l, before, y, earlier)
    ensures DefinedAmong(l, after, y, earlier)
  {
    if !y.opcode.Phi? {
      forall k, x, z | 0 <= k < |AllOperands(y)| && AllOperands(y)[k].InstRef? && x in l.blocks && !InSubLoop(l, x) &&
        z in after[x] && z.id == AllOperands(y)[k].id
        ensures z in earlier
      {
        assert z in multiset(after[x]);
        assert z in before[x];
      }
    }
  }

  lemma ShrinkKeepsFacts(l: Loop, before: Body, after: Body, done: seq<Inst>, s: seq<Inst>)
    requires forall x :: x in l.blocks ==> x < |before|
    requires OnlyLoses(l, before, after)
    requires NoDup(l, before) && Closed(l, before, done) && DefsBefore(l, before, done, s)
    ensures NoDup(l, after) && Closed(l, after, done) && DefsBefore(l, after, done, s)
  {
    forall y | y in done
      ensures DefinedAmong(l, after, y, done)
    {
      DefinedAmongShrinks(l, before, after, y, done);
    }
    forall p | 0 <= p < |s|
      ensures DefinedAmong(l, after, s[p], done + s[..p])
    {
      DefinedAmongShrinks(l, before, after, s[p], done + s[..p]);
    }
    forall x, y | x in l.blocks && y in l.blocks && x != y
      ensures multiset(after[x]) !! multiset(after[y])
    {
      forall v | v in multiset(after[x])
        ensures v !in multiset(after[y])
      {
        assert v in multiset(before[x]);
      }
    }
  }

  /** Scanning s on top of done keeps done closed. */
  lemma ClosedExtend(l: Loop, body: Body, done: seq<Inst>, s: seq<Inst>)
    requires forall x :: x in l.blocks ==> x < |body|
    requires Closed(l, body, done) && DefsBefore(l, body, done, s)
    ensures Closed(l, body, done + s)
  {
    forall y | y in done + s
      ensures DefinedAmong(l, body, y, done + s)
    {
      if y in done {
        assert DefinedAmong(l, body, y, done);
      } else {
        var q :| 0 <= q < |s| && s[q] == y;
        assert DefinedAmong(l, body, s[q], done + s[..q]);
        assert forall v :: v in done + s[..q] ==> v in done + s;
      }
    }
  }

  lemma DefsBeforeSplit(l: Loop, body: Body, done: seq<Inst>, s1: seq<Inst>, s2: seq<Inst>)
    requires forall x :: x in l.blocks ==> x < |body|
    requires DefsBefore(l, body, done, s1 + s2)
    ensures DefsBefore(l, body, done, s1) && DefsBefore(l, body, done + s1, s2)
  {
    var s := s1 + s2;
    forall p | 0 <= p < |s1|
      ensures DefinedAmong(l, body, s1[p], done + s1[..p])
    {
      assert s[p] == s1[p] && s[..p] == s1[..p];
    }
    forall p | 0 <= p < |s2|
      ensures DefinedAmong(l, body, s2[p], done + s1 + s2[..p])
    {
      assert s[|s1| + p] == s2[p];
      assert done + s[..|s1| + p] == done + s1 + s2[..p];
    }
  }

  /** An instruction no loop block holds can be dropped from what came earlier. */
  lemma DefsBeforeDrop(l: Loop, body: Body, done: seq<Inst>, i: Inst, s: seq<Inst>)
    requires forall x :: x in l.blocks ==> x < |body|
    requires forall x :: x in l.blocks ==> i !in body[x]
    requires DefsBefore(l, body, done + [i], s)
    ensures DefsBefore(l, body, done, s)
  {
    forall p | 0 <= p < |s|
      ensures DefinedAmong(l, body, s[p], done + s[..p])
    {
      assert DefinedAmong(l, body, s[p], done + [i] + s[..p]);
    }
  }

  /** A sequence from position k on is its k-th element followed by the rest. */
  lemma AppendAt<T>(front: seq<T>, s: seq<T>, k: nat)
    requires k < |s|
    ensures s[k..] == [s[k]] + s[k + 1..]
    ensures front + s[k..] == front + [s[k]] + s[k + 1..]
  {
    assert s[k..] == [s[k]] + s[k + 1..];
  }

  /** After removing the k-th element, what followed it starts at position k. */
  lemma RemoveAt<T>(s: seq<T>, k: nat, r: seq<T>)
    requires k < |s| && r == s[..k] + s[k + 1..]
    ensures r[k..] == s[k + 1..]
    ensures s[k..] == [s[k]] + r[k..]
  {
    assert r[k..] == s[k + 1..];
  }

  /** With no instruction occurring twice, a hoisted instruction is gone from every loop block. */
  lemma HoistRemoves(m: Module, rank: map<string, nat>, l: Loop, ph: nat, body: Body, b: nat, k: nat)
    requires WellFormed(m, rank, l, ph, body)
    requires b in l.blocks && k < |body[b]| && NoDup(l, body)
    ensures forall x :: x in l.blocks ==> body[b][k] !in Hoist(body, ph, b, k)[x]
  {
    var i := body[b][k];
    var next := Hoist(body, ph, b, k);
    forall x | x in l.blocks
      ensures i !in next[x]
    {
      if x == b {
        assert multiset(next[b]) + multiset{i} == multiset(body[b]);
        assert multiset(body[b])[i] <= 1;
      } else {
        assert i in multiset(body[b]);
        assert multiset(body[x]) !! multiset(body[b]);
        assert next[x] == body[x];
      }
    }
  }

  /** An instruction that stays where it was is still defined in the loop after a hoist. */
  lemma OtherStays(m: Module, rank: map<string, nat>, l: Loop, ph: nat, body: Body, b: nat, k: nat, x: nat, j: nat)
    requires WellFormed(m, rank, l, ph, body)
    requires b in l.blocks && k < |body[b]|
    requires x in l.blocks && j < |body[x]| && (x, j) != (b, k)
    ensures DefinedInLoop(l, Hoist(body, ph, b, k), body[x][j].id)
  {
    var next := Hoist(body, ph, b, k);
    if x == b && j > k {
      assert next[b][j - 1] == body[x][j];
    } else if x == b {
      assert next[b][j] == body[x][j];
    } else {
      assert next[x] == body[x];
    }
  }

  /**
    An instruction held back by an operand whose definition is in done stays
    held back when an instruction outside done is hoisted.
  */
  lemma BlockerStays(m: Module, rank: map<string, nat>, l: Loop, ph: nat, body: Body, b: nat, k: nat, done: seq<Inst>, z: Inst)
    requires WellFormed(m, rank, l, ph, body)
    requires b in l.blocks && !InSubLoop(l, b) && k < |body[b]| && body[b][k] !in done
    requires DefinedAmong(l, body, z, done) && !z.opcode.Phi? && !IsLoopInvariantInst(l, body, z)
    ensures !IsLoopInvariantInst(l, Hoist(body, ph, b, k), z)
  {
    var ops := AllOperands(z);
    var q :| 0 <= q < |ops| && !IsLoopInvariant(l, body, ops[q]);
    var x, j :| x in l.blocks && x < |body| && 0 <= j < |body[x]| && body[x][j].id == ops[q].id;
    assert body[x][j] in body[x];
    if !InSubLoop(l, x) {
      assert body[x][j] in done;
    }
    OtherStays(m, rank, l, ph, body, b, k, x, j);
    assert !IsLoopInvariant(l, Hoist(body, ph, b, k), ops[q]);
  }

  /**
    Hoisting a qualifying instruction keeps done settled: whatever held an
    instruction of done back is itself in done, so it is not the one that
    left.
  */
  lemma HoistKeepsSettled(m: Module, rank: map<string, nat>, l: Loop, ph: nat, body: Body, b: nat, k: nat, done: seq<Inst>)
    requires WellFormed(m, rank, l, ph, body)
    requires b in l.blocks && !InSubLoop(l, b) && k < |body[b]|
    requires Qualifies(m, rank, l, body, body[b][k])
    requires Settled(m, rank, l, body, done) && Closed(l, body, done)
    ensures Settled(m, rank, l, Hoist(body, ph, b, k), done)
  {
    var next := Hoist(body, ph, b, k);
    HoistShrinksLoop(m, rank, l, ph, body, b, k);
    assert body[b][k] !in done by {
      assert body[b][k] in body[b];
    }
    forall x, z | x in l.blocks && z in next[x] && z in done
      ensures !Qualifies(m, rank, l, next, z)
    {
      StillHeldBack(m, rank, l, ph, body, b, k, done, x, z);
    }
  }

  /** One instruction of done that stays in a loop block after the hoist still does not qualify. */
  lemma StillHeldBack(m: Module, rank: map<string, nat>, l: Loop, ph: nat, body: Body, b: nat, k: nat, done: seq<Inst>, x: nat, z: Inst)
    requires WellFormed(m, rank, l, ph, body)
    requires b in l.blocks && !InSubLoop(l, b) && k < |body[b]| && body[b][k] !in done
    requires Settled(m, rank, l, body, done) && Closed(l, body, done)
    requires x in l.blocks && z in done
    requires multiset(Hoist(body, ph, b, k)[x]) <= multiset(body[x]) && z in Hoist(body, ph, b, k)[x]
    ensures !Qualifies(m, rank, l, Hoist(body, ph, b, k), z)
  {
    assert z in body[x] by {
      assert z in multiset(Hoist(body, ph, b, k)[x]);
    }
    if CanHoistInst(m, rank, z) {
      BlockerStays(m, rank, l, ph, body, b, k, done, z);
    }
  }

  /** An instruction that cannot be hoisted now may join done. */
  lemma SettledAdd(m: Module, rank: map<string, nat>, l: Loop, body: Body, done: seq<Inst>, i: Inst)
    requires Acyclic(m, rank)
    requires forall x :: x in l.blocks ==> x < |body|
    requires Settled(m, rank, l, body, done) && !Qualifies(m, rank, l, body, i)
    ensures Settled(m, rank, l, body, done + [i])
  {
  }

  /** An instruction no loop block holds any more may join done. */
  lemma SettledGone(m: Module, rank: map<string, nat>, l: Loop, body: Body, done: seq<Inst>, i: Inst, s: seq<Inst>)
    requires Acyclic(m, rank)
    requires forall x :: x in l.blocks ==> x < |body|
    requires forall x :: x in l.blocks ==> i !in body[x]
    requires Settled(m, rank, l, body, done + s)
    ensures Settled(m, rank, l, body, done + ([i] + s))
  {
    forall x, z | x in l.blocks && z in body[x] && z in done + ([i] + s)
      ensures !Qualifies(m, rank, l, body, z)
    {
      assert z in done + s;
    }
  }

  /** An instruction gone from the loop's blocks stays gone while they only lose instructions. */
  lemma GoneStaysGone(l: Loop, before: Body, after: Body, i: Inst)
    requires forall x :: x in l.blocks ==> x < |before|
    requires OnlyLoses(l, before, after)
    requires forall x :: x in l.blocks ==> i !in before[x]
    ensures forall x :: x in l.blocks ==> i !in after[x]
  {
    forall x | x in l.blocks
      ensures i !in after[x]
    {
      assert multiset(before[x])[i] == 0;
      assert multiset(after[x])[i] <= multiset(before[x])[i];
    }
  }

  /**
    The scan of one block settles every instruction it meets: if nothing in
    done can be hoisted, what done depends on is in done, and definitions
    come before uses in the rest of the block, then afterwards nothing in
    done or in the block from position k on can be hoisted.
  */
  lemma {:induction false} HoistBlockSettles(m: Module, rank: map<string, nat>, l: Loop, ph: nat, body: Body, b: nat, k: nat, done: seq<Inst>)
    requires WellFormed(m, rank, l, ph, body)
    requires b in l.blocks && !InSubLoop(l, b) && k <= |body[b]|
    requires NoDup(l, body) && Settled(m, rank, l, body, done) && Closed(l, body, done)
    requires DefsBefore(l, body, done, body[b][k..])
    decreases |body[b]| - k, 1
    ensures Settled(m, rank, l, HoistBlock(m, rank, l, ph, body, b, k).body, done + body[b][k..])
  {
    if k == |body[b]| {
      assert done + body[b][k..] == done;
    } else if Qualifies(m, rank, l, body, body[b][k]) {
      HoistedSettles(m, rank, l, ph, body, b, k, done);
    } else {
      SkippedSettles(m, rank, l, ph, body, b, k, done);
    }
  }

  /** The case of HoistBlockSettles where the k-th instruction stays: it joins done. */
  lemma {:induction false} SkippedSettles(m: Module, rank: map<string, nat>, l: Loop, ph: nat, body: Body, b: nat, k: nat, done: seq<Inst>)
    requires WellFormed(m, rank, l, ph, body)
    requires b in l.blocks && !InSubLoop(l, b) && k < |body[b]|
    requires !Qualifies(m, rank, l, body, body[b][k])
    requires NoDup(l, body) && Settled(m, rank, l, body, done) && Closed(l, body, done)
    requires DefsBefore(l, body, done, body[b][k..])
    decreases |body[b]| - k, 0
    ensures Settled(m, rank, l, HoistBlock(m, rank, l, ph, body, b, k).body, done + body[b][k..])
  {
    var i := body[b][k];
    assert HoistBlock(m, rank, l, ph, body, b, k) == HoistBlock(m, rank, l, ph, body, b, k + 1);
    SkipPrepares(m, rank, l, body, b, k, done);
    HoistBlockSettles(m, rank, l, ph, body, b, k + 1, done + [i]);
  }

  /** What SkippedSettles needs to go on with done + [body[b][k]]. */
  lemma SkipPrepares(m: Module, rank: map<string, nat>, l: Loop, body: Body, b: nat, k: nat, done: seq<Inst>)
    requires Acyclic(m, rank) && forall x :: x in l.blocks ==> x < |body|
    requires b in l.blocks && k < |body[b]|
    requires !Qualifies(m, rank, l, body, body[b][k])
    requires Settled(m, rank, l, body, done) && Closed(l, body, done)
    requires DefsBefore(l, body, done, body[b][k..])
    ensures Settled(m, rank, l, body, done + [body[b][k]]) && Closed(l, body, done + [body[b][k]])
    ensures DefsBefore(l, body, done + [body[b][k]], body[b][k + 1..])
    ensures done + body[b][k..] == done + [body[b][k]] + body[b][k + 1..]
  {
    var i := body[b][k];
    AppendAt(done, body[b], k);
    DefsBeforeSplit(l, body, done, [i], body[b][k + 1..]);
    ClosedExtend(l, body, done, [i]);
    SettledAdd(m, rank, l, body, done, i);
  }

  /** The case of HoistBlockSettles where the k-th instruction qualifies and is hoisted. */
  lemma {:induction false} HoistedSettles(m: Module, rank: map<string, nat>, l: Loop, ph: nat, body: Body, b: nat, k: nat, done: seq<Inst>)
    requires WellFormed(m, rank, l, ph, body)
    requires b in l.blocks && !InSubLoop(l, b) && k < |body[b]|
    requires Qualifies(m, rank, l, body, body[b][k])
    requires NoDup(l, body) && Settled(m, rank, l, body, done) && Closed(l, body, done)
    requires DefsBefore(l, body, done, body[b][k..])
    decreases |body[b]| - k, 0
    ensures Settled(m, rank, l, HoistBlock(m, rank, l, ph, body, b, k).body, done + body[b][k..])
  {
    var i := body[b][k];
    var next := Hoist(body, ph, b, k);
    HoistPrepares(m, rank, l, ph, body, b, k, done);
    var rest := HoistBlock(m, rank, l, ph, next, b, k);
    assert HoistBlock(m, rank, l, ph, body, b, k).body == rest.body;
    HoistBlockSettles(m, rank, l, ph, next, b, k, done);
    GoneStaysGone(l, next, rest.body, i);
    SettledGone(m, rank, l, rest.body, done, i, next[b][k..]);
  }

  /** What HoistedSettles needs to go on after the hoist, with done as it was. */
  lemma HoistPrepares(m: Module, rank: map<string, nat>, l: Loop, ph: nat, body: Body, b: nat, k: nat, done: seq<Inst>)
    requires WellFormed(m, rank, l, ph, body)
    requires b in l.blocks && !InSubLoop(l, b) && k < |body[b]|
    requires Qualifies(m, rank, l, body, body[b][k])
    requires NoDup(l, body) && Settled(m, rank, l, body, done) && Closed(l, body, done)
    requires DefsBefore(l, body, done, body[b][k..])
    ensures WellFormed(m, rank, l, ph, Hoist(body, ph, b, k))
    ensures NoDup(l, Hoist(body, ph, b, k))
    ensures Settled(m, rank, l, Hoist(body, ph, b, k), done) && Closed(l, Hoist(body, ph, b, k), done)
    ensures DefsBefore(l, Hoist(body, ph, b, k), done, Hoist(body, ph, b, k)[b][k..])
    ensures body[b][k..] == [body[b][k]] + Hoist(body, ph, b, k)[b][k..]
    ensures forall x :: x in l.blocks ==> body[b][k] !in Hoist(body, ph, b, k)[x]
  {
    var i := body[b][k];
    var next := Hoist(body, ph, b, k);
    HoistShrinksLoop(m, rank, l, ph, body, b, k);
    HoistKeepsFacts(m, rank, l, ph, body, b, k, done);
    HoistRemoves(m, rank, l, ph, body, b, k);
    DefsBeforeDrop(l, next, done, i, next[b][k..]);
    HoistKeepsSettled(m, rank, l, ph, body, b, k, done);
  }

  /** The facts about done that survive a hoist, with the hoisted instruction counted as met. */
  lemma HoistKeepsFacts(m: Module, rank: map<string, nat>, l: Loop, ph: nat, body: Body, b: nat, k: nat, done: seq<Inst>)
    requires WellFormed(m, rank, l, ph, body)
    requires b in l.blocks && k < |body[b]|
    requires NoDup(l, body) && Closed(l, body, done)
    requires DefsBefore(l, body, done, body[b][k..])
    ensures NoDup(l, Hoist(body, ph, b, k)) && Closed(l, Hoist(body, ph, b, k), done)
    ensures DefsBefore(l, Hoist(body, ph, b, k), done + [body[b][k]], Hoist(body, ph, b, k)[b][k..])
    ensures body[b][k..] == [body[b][k]] + Hoist(body, ph, b, k)[b][k..]
  {
    var i := body[b][k];
    var next := Hoist(body, ph, b, k);
    HoistShrinksLoop(m, rank, l, ph, body, b, k);
    RemoveAt(body[b], k, next[b]);
    assert OnlyLoses(l, body, next);
    ShrinkPast(l, body, next, done, i, next[b][k..]);
  }

  /** The facts a walk needs survive a stage that only removed instructions, once the first one met is counted as met. */
  lemma ShrinkPast(l: Loop, before: Body, after: Body, done: seq<Inst>, i: Inst, rest: seq<Inst>)
    requires forall x :: x in l.blocks ==> x < |before|
    requires OnlyLoses(l, before, after)
    requires NoDup(l, before) && Closed(l, before, done) && DefsBefore(l, before, done, [i] + rest)
    ensures NoDup(l, after) && Closed(l, after, done) && DefsBefore(l, after, done + [i], rest)
  {
    DefsBeforeSplit(l, before, done, [i], rest);
    ShrinkKeepsFacts(l, before, after, done + [i], rest);
    ShrinkKeepsFacts(l, before, after, done, []);
  }

  /**
    The walk from n settles every instruction it meets, provided no block is
    scanned twice and, in the order the walk meets them, definitions in the
    loop come before their uses.
  */
  lemma {:induction false} HoistRegionSettles(m: Module, rank: map<string, nat>, l: Loop, ph: nat, n: DomTree, body: Body, done: seq<Inst>)
    requires WellFormed(m, rank, l, ph, body)
    requires NoDup(l, body) && Settled(m, rank, l, body, done) && Closed(l, body, done)
    requires NoRepeats(ScanOrder(l, n)) && DefsBefore(l, body, done, ScanSeq(l, n, body))
    decreases n, |n.children| + 2
    ensures Settled(m, rank, l, HoistRegion(m, rank, l, ph, n, body).body, done + ScanSeq(l, n, body))
  {
    if n.block in l.blocks && !InSubLoop(l, n.block) {
      var here := HoistBlock(m, rank, l, ph, body, n.block, 0);
      RegionPrepares(m, rank, l, ph, n, body, done);
      HoistChildrenSettles(m, rank, l, ph, n, 0, here.body, done + body[n.block]);
      assert HoistRegion(m, rank, l, ph, n, body).body == HoistChildren(m, rank, l, ph, n, 0, here.body).body;
    } else {
      assert ScanSeq(l, n, body) == [];
      assert done + [] == done;
    }
  }

  /** What HoistRegionSettles needs to go on with the children after the node's own block. */
  lemma RegionPrepares(m: Module, rank: map<string, nat>, l: Loop, ph: nat, n: DomTree, body: Body, done: seq<Inst>)
    requires WellFormed(m, rank, l, ph, body)
    requires n.block in l.blocks && !InSubLoop(l, n.block)
    requires NoDup(l, body) && Settled(m, rank, l, body, done) && Closed(l, body, done)
    requires NoRepeats(ScanOrder(l, n)) && DefsBefore(l, body, done, ScanSeq(l, n, body))
    ensures var here := HoistBlock(m, rank, l, ph, body, n.block, 0).body;
      && NoDup(l, here)
      && Settled(m, rank, l, here, done + body[n.block])
      && Closed(l, here, done + body[n.block])
      && NoRepeats(ChildOrder(l, n, 0))
      && DefsBefore(l, here, done + body[n.block], ChildScanSeq(l, n, 0, here))
      && done + ScanSeq(l, n, body) == done + body[n.block] + ChildScanSeq(l, n, 0, here)
  {
    var nb := n.block;
    var here := HoistBlock(m, rank, l, ph, body, nb, 0).body;
    var order := ScanOrder(l, n);
    var co := ChildOrder(l, n, 0);
    var rest := ChildScanSeq(l, n, 0, body);
    assert order == [nb] + co;
    assert ScanSeq(l, n, body) == body[nb] + rest by {
      assert order[0] == nb && order[1..] == co;
    }
    NoRepeatsSplit([nb], co);
    ChildOrderInLoop(l, n, 0);
    GatherFrame(here, body, co);
    assert ChildScanSeq(l, n, 0, here) == rest;
    StageKeepsFacts(l, body, here, done, body[nb], rest);
    assert body[nb][0..] == body[nb];
    HoistBlockSettles(m, rank, l, ph, body, nb, 0, done);
  }

  lemma {:induction false} HoistChildrenSettles(m: Module, rank: map<string, nat>, l: Loop, ph: nat, n: DomTree, c: nat, body: Body, done: seq<Inst>)
    requires WellFormed(m, rank, l, ph, body)
    requires c <= |n.children|
    requires NoDup(l, body) && Settled(m, rank, l, body, done) && Closed(l, body, done)
    requires NoRepeats(ChildOrder(l, n, c)) && DefsBefore(l, body, done, ChildScanSeq(l, n, c, body))
    decreases n, |n.children| - c
    ensures Settled(m, rank, l, HoistChildren(m, rank, l, ph, n, c, body).body, done + ChildScanSeq(l, n, c, body))
  {
    if c < |n.children| {
      var first := HoistRegion(m, rank, l, ph, n.children[c], body);
      var scanned := ScanSeq(l, n.children[c], body);
      ChildPrepares(m, rank, l, ph, n, c, body, done);
      HoistRegionSettles(m, rank, l, ph, n.children[c], body, done);
      HoistChildrenSettles(m, rank, l, ph, n, c + 1, first.body, done + scanned);
      assert HoistChildren(m, rank, l, ph, n, c, body).body == HoistChildren(m, rank, l, ph, n, c + 1, first.body).body;
    } else {
      assert ChildScanSeq(l, n, c, body) == [];
      assert done + [] == done;
    }
  }

  /** None of the listed blocks is in region. */
  ghost predicate Avoids(order: seq<nat>, region: set<nat>)
  {
    forall j :: 0 <= j < |order| ==> order[j] !in region
  }

  /**
    A stage that scans the first part of a walk's sequence and only removes
    instructions from loop blocks keeps the facts the rest of the walk needs.
  */
  lemma StageKeepsFacts(l: Loop, before: Body, after: Body, done: seq<Inst>, scanned: seq<Inst>, later: seq<Inst>)
    requires forall x :: x in l.blocks ==> x < |before|
    requires OnlyLoses(l, before, after)
    requires NoDup(l, before) && Closed(l, before, done) && DefsBefore(l, before, done, scanned + later)
    ensures DefsBefore(l, before, done, scanned)
    ensures NoDup(l, after) && Closed(l, after, done + scanned) && DefsBefore(l, after, done + scanned, later)
    ensures done + (scanned + later) == done + scanned + later
  {
    DefsBeforeSplit(l, before, done, scanned, later);
    ClosedExtend(l, before, done, scanned);
    ShrinkKeepsFacts(l, before, after, done + scanned, later);
  }

  /** How the scan under the children from the c-th on splits at the c-th child. */
  lemma ChildOrderSplit(l: Loop, n: DomTree, c: nat, body: Body)
    requires forall x :: x in l.blocks ==> x < |body|
    requires c < |n.children| && NoRepeats(ChildOrder(l, n, c))
    ensures ChildScanSeq(l, n, c, body) == ScanSeq(l, n.children[c], body) + ChildScanSeq(l, n, c + 1, body)
    ensures NoRepeats(ScanOrder(l, n.children[c])) && NoRepeats(ChildOrder(l, n, c + 1))
    ensures LoopOrder(l, ChildOrder(l, n, c + 1)) && Avoids(ChildOrder(l, n, c + 1), Region(l, n.children[c]))
  {
    var so := ScanOrder(l, n.children[c]);
    var co := ChildOrder(l, n, c + 1);
    ScanOrderInLoop(l, n.children[c]);
    ChildOrderInLoop(l, n, c + 1);
    GatherAppend(body, so, co);
    NoRepeatsSplit(so, co);
    ScanOrderIsRegion(l, n.children[c]);
  }

  /** Walking the c-th child leaves the blocks scanned under the later children as they were. */
  lemma ChildFrame(m: Module, rank: map<string, nat>, l: Loop, ph: nat, n: DomTree, c: nat, body: Body)
    requires WellFormed(m, rank, l, ph, body)
    requires c < |n.children| && NoRepeats(ChildOrder(l, n, c))
    ensures ChildScanSeq(l, n, c + 1, HoistRegion(m, rank, l, ph, n.children[c], body).body) == ChildScanSeq(l, n, c + 1, body)
  {
    var first := HoistRegion(m, rank, l, ph, n.children[c], body).body;
    ChildOrderSplit(l, n, c, body);
    GatherFrame(first, body, ChildOrder(l, n, c + 1));
  }

  /** What HoistChildrenSettles needs for the c-th child and for the children after it. */
  lemma ChildPrepares(m: Module, rank: map<string, nat>, l: Loop, ph: nat, n: DomTree, c: nat, body: Body, done: seq<Inst>)
    requires WellFormed(m, rank, l, ph, body)
    requires c < |n.children|
    requires NoDup(l, body) && Closed(l, body, done)
    requires NoRepeats(ChildOrder(l, n, c)) && DefsBefore(l, body, done, ChildScanSeq(l, n, c, body))
    ensures NoRepeats(ScanOrder(l, n.children[c])) && DefsBefore(l, body, done, ScanSeq(l, n.children[c], body))
    ensures var first := HoistRegion(m, rank, l, ph, n.children[c], body).body;
      var scanned := ScanSeq(l, n.children[c], body);
      && NoDup(l, first)
      && Closed(l, first, done + scanned)
      && NoRepeats(ChildOrder(l, n, c + 1))
      && DefsBefore(l, first, done + scanned, ChildScanSeq(l, n, c + 1, first))
      && done + ChildScanSeq(l, n, c, body) == done + scanned + ChildScanSeq(l, n, c + 1, first)
  {
    var first := HoistRegion(m, rank, l, ph, n.children[c], body).body;
    var scanned := ScanSeq(l, n.children[c], body);
    var later := ChildScanSeq(l, n, c + 1, body);
    ChildOrderSplit(l, n, c, body);
    ChildFrame(m, rank, l, ph, n, c, body);
    StageKeepsFacts(l, body, first, done, scanned, later);
  }

  /**
    One walk from n is enough: if no instruction id occurs twice in the
    loop, no block is scanned twice, and every instruction of the loop that
    a scanned instruction uses was met earlier by the walk, then no
    instruction left in a scanned block could still be hoisted.
  */
  lemma HoistRegionOnePass(m: Module, rank: map<string, nat>, l: Loop, ph: nat, n: DomTree, body: Body)
    requires WellFormed(m, rank, l, ph, body)
    requires UniqueIds(l, body) && NoRepeats(ScanOrder(l, n))
    requires DefsBefore(l, body, [], ScanSeq(l, n, body))
    ensures var after := HoistRegion(m, rank, l, ph, n, body).body;
      forall x, z :: x in Region(l, n) && x < |after| && z in after[x] ==> !Qualifies(m, rank, l, after, z)
  {
    var after := HoistRegion(m, rank, l, ph, n, body).body;
    UniqueIdsNoDup(l, body);
    HoistRegionSettles(m, rank, l, ph, n, body, []);
    assert [] + ScanSeq(l, n, body) == ScanSeq(l, n, body);
    ScanOrderInLoop(l, n);
    assert OnlyLoses(l, body, after);
    SettledCovers(m, rank, l, body, after, ScanOrder(l, n));
    ScanOrderIsRegion(l, n);
  }

  /** If every instruction gathered from the listed blocks is settled, nothing left in those blocks qualifies. */
  lemma SettledCovers(m: Module, rank: map<string, nat>, l: Loop, body: Body, after: Body, order: seq<nat>)
    requires Acyclic(m, rank) && forall x :: x in l.blocks ==> x < |body|
    requires OnlyLoses(l, body, after) && LoopOrder(l, order)
    requires Settled(m, rank, l, after, Gather(body, order))
    ensures forall x, z :: x in order && x < |after| && z in after[x] ==> !Qualifies(m, rank, l, after, z)
  {
    forall x, z | x in order && x < |after| && z in after[x]
      ensures !Qualifies(m, rank, l, after, z)
    {
      assert x in l.blocks;
      assert z in multiset(after[x]);
      assert z in body[x];
      GatherHas(body, order, x, z);
    }
  }

  /**
    The same for the pass: with a preheader, under those conditions no
    instruction left in a block the walk from the header scans could still
    be hoisted, so a second run would change nothing there.
  */
  lemma RunOnLoopOnePass(m: Module, rank: map<string, nat>, l: Loop, header: DomTree, body: Body)
    requires LoopWellFormed(m, rank, l, body)
    requires UniqueIds(l, body) && NoRepeats(ScanOrder(l, header))
    requires DefsBefore(l, body, [], ScanSeq(l, header, body))
    ensures l.preheader.Some? ==> (
      var after := RunOnLoop(m, rank, l, header, body).body;
      forall x, z :: x in Region(l, header) && x < |after| && z in after[x] ==> !Qualifies(m, rank, l, after, z))
  {
    if l.preheader.Some? {
      var ph := l.preheader.value;
      assert RunOnLoop(m, rank, l, header, body).body == HoistRegion(m, rank, l, ph, header, body).body;
      HoistRegionOnePass(m, rank, l, ph, header, body);
    }
  }
}

=== FILE: wrappers.dfy ===
/** Failure-compatible datatypes used across the model. */
module Wrappers {

  /** An optional value; stands for a possibly-null pointer of the source. */
  datatype Option<+T> = None | Some(value: T)

  /** Either a value or an error; stands for a computation that may abort the process. */
  datatype Result<+R, +E> = Success(value: R) | Failure(error: E)
}
